=== FILE: README.md ===
# memscope-bridge protocol and bootstrap, modelled in Dafny

This project models the core of memscope-bridge. The system lets an external client read the memory of a protected target process through four cooperating programs:

- **HandleForwarder** finds the target by executable name and opens it. It duplicates that handle into the broker ("Memory Bridge") and writes the duplicated value down a one-shot relay pipe.
- **MemoryBridge** (the broker) prints its PID and receives the handle. It polls until `main.dll` is loaded in the target. Then it serves a byte protocol on a client pipe: INIT (`0x01`) answers the module base, and READ (`0x02` + `u64 address` + `u32 size`) answers `[0x00] ++ data` or `[0x01]`.
- **memory_overlay.py** is the client. It encodes requests with `struct.pack` and decodes replies with `struct.unpack`.
- **launcher.py** starts the broker and scrapes its PID from its output. It passes the PID to the forwarder, runs the client, and terminates the broker.

Every OS call is an oracle, meaning its result is an input to the model. This covers snapshots, `OpenProcess`, `DuplicateHandle`, pipe calls and `NtReadVirtualMemory`. Given those results, each component is a pure function:

- A client session is a fold over the chunks `ReadFile` delivered.
- Each program's `main` records what its source makes observable. The forwarder (`HandleForwarder.ForwarderMain`) records an exit status, the bytes it sent and the sets of local handles it acquired and released. The broker's start-up (`BridgeBootstrap.Bootstrap`) and accept loop (`BridgeBootstrap.ServeLoop`) record an exit code or how the loop stands, with no handle sets. The launcher (`Launcher.LauncherMain`) records the processes it launched and terminated, and has no exit code.
- An infinite polling loop sees a finite list of observations. A run that uses them all up is reported as still waiting.

Files and modules:

- `wrappers.dfy` (`Wrappers`): `Option`, `Result`.
- `bytes.dfy` (`Bytes`): byte/u32/u64, the little-endian layout and its round trips, two's-complement reading.
- `decimal.dfy` (`Decimal`): decimal printing and parsing, the leading digit run.
- `search.dfy` (`Search`): first-match search over a snapshot, C-locale case folding.
- `bridge_protocol.dfy` (`BridgeProtocol`): `NT_SUCCESS`, request decoding, module lookup, READ/INIT replies, sessions.
- `bridge_bootstrap.dfy` (`BridgeBootstrap`): PID announcement, `ReceiveHandleFromForwarder`, startup, accept loop.
- `handle_forwarder.dfy` (`HandleForwarder`): `FindProcessId`, `stoul`, the pipe-open loop, `main`.
- `memory_overlay.dfy` (`MemoryOverlay`): `_send_request`, `initialize`, `read_bytes`, `read_int`.
- `launcher.dfy` (`Launcher`): the PID regex, the PID capture loop, `main`.
- `end_to_end.dfy` (`EndToEnd`): round trips across the programs.

Behaviours of the code worth knowing:

- INIT re-runs the module lookup on every request (MemoryBridge.cpp:64). It does not reuse the base cached by `main`. So INIT is idempotent only while the target's module list stays the same, and `InitIdempotent` assumes exactly that.
- For base `0x140000000` the INIT reply is `00 00 00 40 01 00 00 00` (`EndToEnd.WorkedExample`).
- A READ allocates a `size`-byte buffer (MemoryBridge.cpp:70), and on success the reply buffer's allocations hold the `1 + size`-byte reply (MemoryBridge.cpp:80-82). `1 + request->size` is computed in 32 bits, so for size `0xFFFFFFFF` the `reserve` asks for nothing and the 2^32-byte allocation happens in `insert`. A failed allocation throws `std::bad_alloc`, which nothing catches, so the broker ends (`Step.Crash`, `SessionResult.Aborted`, `Ending.Crashed`).
- `WriteFile` takes its length as a DWORD (MemoryBridge.cpp:83). A successful read of `0xFFFFFFFF` bytes builds a 2^32-byte reply that is sent as length 0, so no byte reaches the client (`BridgeProtocol.LargestReadSendsNothing`).
- In Python 3, `ConnectionError` is a subclass of `OSError`, and `IOError` is an alias of `OSError`. So `read_bytes` also catches "not connected" and returns `b''`. `initialize` has no handler, so the error reaches its caller.
- The client reads at most 4096 bytes per reply. A successful READ of 4096 bytes or more, and below `0xFFFFFFFF`, comes back cut to 4095 data bytes, and the rest stays in the pipe (`EndToEnd.OversizedReadIsCut`).
- A READ chunk shorter than 13 bytes makes the broker interpret stale buffer bytes. The model does not invent them: the chunk is `Truncated`, and the session result becomes `Undefined` at that chunk. Those stale bytes can hold any size, so the broker may then fail an allocation and end; the accept loop's account therefore stops at such a session (`Ending.Unknown`).

## Model

| member | source | states |
|---|---|---|
| Bytes.LE64 | MemoryBridge.cpp:26 | the 8-byte layout of a u64 has length 8 and decodes back to the value |
| Bytes.LE32 | MemoryBridge.cpp:25 | the 4-byte layout of a u32 has length 4 and decodes back to the value |
| Bytes.DecodeLE | memory_overlay.py:64 | a little-endian byte string decodes to a value below 256^length |
| Bytes.DecodeEncodeLE | memory_overlay.py:70 | decoding the n-byte little-endian encoding of x gives x |
| Bytes.EncodeDecodeLE | memory_overlay.py:64 | re-encoding a decoded byte string at its own width gives the same bytes |
| Bytes.LE64OfDecode | memory_overlay.py:64 | every 8-byte string is exactly the layout of the u64 that `unpack('Q')` reads from it |
| Bytes.ToSigned32 | memory_overlay.py:85 | `unpack('i')` gives the unique value in [-2^31, 2^31) congruent to the pattern mod 2^32, and it is negative iff bit 31 is set |
| Decimal.ToDecimal | MemoryBridge.cpp:131 | a PID prints as a non-empty digit string with no leading zero |
| Decimal.ValueOfToDecimal | launcher.py:55 | parsing the printed decimal of n gives n |
| Decimal.LeadingDigits | launcher.py:53 | the greedy digit run is the longest all-digit prefix, stopped by a non-digit or the end |
| Decimal.LeadingDigitsOfDigitsThen | launcher.py:53 | a digit string followed by a non-digit is exactly the run `\d+` captures |
| Search.FirstMatch | MemoryBridge.cpp:42-51 | the result is the first index whose entry matches; None iff no entry matches |
| Search.EqualsIgnoreCaseIsEquivalence | MemoryBridge.cpp:44 | `_stricmp` equality contains plain equality, is symmetric and transitive |
| BridgeProtocol.NtSuccess | MemoryBridge.cpp:10-12 | a status succeeds iff its 32-bit pattern read as signed is >= 0, i.e. bit 31 is clear |
| BridgeProtocol.NtSuccessOnKnownCodes | MemoryBridge.cpp:11 | success and informational codes pass; STATUS_PARTIAL_COPY and STATUS_ACCESS_VIOLATION fail |
| BridgeProtocol.ModuleBaseAddress | MemoryBridge.cpp:30-52 | 0 for pid 0, for a failed snapshot or with no match; otherwise the base of the first entry named `main.dll` case-insensitively |
| BridgeProtocol.DecodeReadRequest | MemoryBridge.cpp:69 | decoding succeeds iff 13 bytes arrived; then bytes 1..8 are the LE address and bytes 9..12 the LE size, no padding |
| BridgeProtocol.ReadBuffer | MemoryBridge.cpp:70-72 | the buffer after the read has length size, the read's bytes as prefix, zeros after |
| BridgeProtocol.ReadReply | MemoryBridge.cpp:74-87 | the reply as built in memory: status 0 iff NT_SUCCESS and bytesRead == size; then 1 + size bytes with the buffer as tail; otherwise exactly `[0x01]` |
| BridgeProtocol.WriteFileBytes | MemoryBridge.cpp:83 | with its DWORD length, `WriteFile` sends the first `length mod 2^32` bytes of the payload, so payloads below 2^32 bytes go out whole |
| BridgeProtocol.ReadStep | MemoryBridge.cpp:69-87 | the broker ends iff the read buffer, or after a successful read the reply buffer, cannot be allocated; otherwise a failed read sends `[0x01]`, a successful one `[0x00]` and the buffer, and one of size 0xFFFFFFFF nothing |
| BridgeProtocol.LargestReadSendsNothing | MemoryBridge.cpp:80-83 | a successful read of 0xFFFFFFFF bytes builds a 2^32-byte reply and sends no byte of it |
| BridgeProtocol.HandleChunk | MemoryBridge.cpp:59-89 | empty chunk skipped; INIT gives 8 bytes decoding to the lookup; a whole READ frame takes the READ step for its decoded request, which ends the broker exactly when an allocation fails; a short READ is truncated; any other command writes nothing |
| BridgeProtocol.TrailingBytesIgnored | MemoryBridge.cpp:59-69 | bytes after the first complete command in a chunk do not change the reply |
| BridgeProtocol.ServeSession | MemoryBridge.cpp:55-92 | a session is defined iff no chunk is a truncated READ or a READ whose allocation fails; otherwise it stops at the first such chunk, undefined for a truncated READ and aborted for a failed allocation |
| BridgeProtocol.SingleChunkSession | MemoryBridge.cpp:59-90 | a one-chunk session writes exactly the step's reply, nothing for a zero-byte read, and stops at once on a truncated READ or a failed allocation; with `SessionAppend` this fixes every session's output |
| BridgeProtocol.SessionAppend | MemoryBridge.cpp:59-90 | a session's output is the first part's output followed by the rest's |
| BridgeProtocol.EmptyChunkInvisible | MemoryBridge.cpp:60 | a zero-byte read anywhere before the session stops changes nothing the client sees |
| BridgeProtocol.InitIdempotent | MemoryBridge.cpp:63-67 | n INITs against an unchanged module list give n copies of the same 8-byte base |
| BridgeBootstrap.PidAnnouncement | MemoryBridge.cpp:130-131 | the first output line is the banner, then digits whose value is the PID, then a newline |
| BridgeBootstrap.ReceiveHandleFromForwarder | MemoryBridge.cpp:95-127 | nonzero only if create, connect and read succeed with exactly 8 bytes, whose LE value it is; the pipe is closed on every path after creation |
| BridgeBootstrap.Bootstrap | MemoryBridge.cpp:129-155 | exit 1 exactly without NtRead or with a NULL handle; ready only with a nonzero base from the first poll that found one; otherwise still polling |
| BridgeBootstrap.ServeLoop | MemoryBridge.cpp:158-171 | the account of the loop stops iff some round fails to create the pipe (`main` returns 1), serves a session a failed allocation aborts (the process ends), or serves a session with a truncated READ (what the broker does next is unknown); connect failures never stop it; round i serves exactly accept i's session, and only the last session recorded can be one that stops it |
| BridgeBootstrap.RunRounds | MemoryBridge.cpp:158-171 | rounds run in order until the first exit round (code 1, no session for it), the first session that ends the broker, or the first session the model cannot follow (either session is the last recorded); otherwise every round is served and the loop is still listening; round i records round i's session |
| BridgeBootstrap.TruncatedReadStopsLoop | MemoryBridge.cpp:59-70 | a session opening with a one-byte READ leaves the loop's outcome unknown, even when later rounds would let a surviving broker go on |
| HandleForwarder.FindProcessId | HandleForwarder.cpp:12-30 | 0 for a failed snapshot or no match; otherwise the pid of the first entry whose name equals the target exactly (case-sensitive) |
| HandleForwarder.ParseUnsignedLong | HandleForwarder.cpp:38 | defined iff the argument starts with digits whose value fits 32 bits; the value is that digit run's, which is some leading zeros followed by the value's decimal spelling |
| HandleForwarder.CanonicalDecimal | HandleForwarder.cpp:38 | a digit string without leading zero is the decimal spelling of its value |
| HandleForwarder.ZerosThenDecimal | HandleForwarder.cpp:38 | every digit string is some zeros followed by the decimal spelling of its value |
| Decimal.ValueOfLeadingZero | HandleForwarder.cpp:38 | a leading zero adds nothing to a digit string's value |
| HandleForwarder.LeadingZerosParsed | HandleForwarder.cpp:38-42 | `stoul("007")` is 7 and `stoul("00")` is 0, the value that takes the invalid-PID exit |
| HandleForwarder.ParseUnsignedLongOfDecimal | HandleForwarder.cpp:38 | `stoul` reads back the decimal spelling of any 32-bit value, whatever non-digit text follows |
| HandleForwarder.LoggedErrorsNeverBusy | HandleForwarder.cpp:91-94 | ERROR_PIPE_BUSY is never logged |
| HandleForwarder.ConnectRelayPipe | HandleForwarder.cpp:88-97 | the loop retries every failure, stops at the first open, and logs exactly the non-busy failures before it |
| HandleForwarder.OpenAndRelay | HandleForwarder.cpp:54-113 | each failure exits 1 having closed exactly what it opened; if the relay pipe never opens, the run is still connecting and holds both process handles; with the pipe open, exit 0 even if the write failed; the duplicated handle is never closed; the bytes sent are the handle's 8-byte layout |
| HandleForwarder.ForwarderMain | HandleForwarder.cpp:32-113 | missing or zero PID exits 1 before any lookup; without a target the run keeps polling holding nothing; after a lookup it is the relay stage with the PID found first |
| HandleForwarder.PollAndRelay | HandleForwarder.cpp:48-113 | polling stops at the first snapshot that shows the target, whose PID the relay uses; without such a snapshot the run is still polling, holding no handle; every exit releases what it acquired |
| MemoryOverlay.ReadRequestBytes | memory_overlay.py:69-70 | a READ request is 13 bytes: 0x02, then the LE u64 address, then the LE u32 size |
| MemoryOverlay.SendRequest | memory_overlay.py:41-53 | with no handle nothing is written and ConnectionError results; a failing `WriteFile` writes nothing and a failing `ReadFile` follows the whole request, and both raise IOError and drop the handle; otherwise `(err, data)` comes back |
| MemoryOverlay.Initialize | memory_overlay.py:55-65 | sends the single byte 0x01; succeeds iff err == 0 and exactly 8 bytes came back, with their LE value |
| MemoryOverlay.ReadBytes | memory_overlay.py:67-80 | out-of-range fields raise struct.error; otherwise never raises; a nonempty result is the reply minus a 0x00 status byte, and every other reply gives `b''` |
| MemoryOverlay.ReadInt | memory_overlay.py:82-85 | the signed 32-bit reading of the data iff exactly 4 data bytes came back, else None |
| Launcher.SearchFrom | launcher.py:53 | the leftmost position at or after `from` where the pattern matches; None iff there is none |
| Launcher.FindPid | launcher.py:53-55 | a line yields a PID iff the pattern matches somewhere; the PID is the digit run after the leftmost match |
| Launcher.CapturePid | launcher.py:47-59 | the PID of the first matching output line; earlier lines are skipped; None iff no line matches |
| Launcher.RelayAndRun | launcher.py:65-92 | the forwarder gets the PID's decimal string; the client runs iff the forwarder returned 0; a nonzero exit gives exactly the forwarder launch and the broker's termination; the broker is terminated last unless the wait timed out |
| Launcher.LauncherMain | launcher.py:17-92 | a missing file launches nothing; no PID means the broker is started then terminated; a nonzero forwarder exit gives exactly broker, forwarder, terminate broker; a timeout leaves just the two launches; the client runs only after a successful forwarder and before the broker's termination |
| Launcher.Launch | launcher.py:17-92 | the same run given the PID captured from the broker's output: no file, no launch; no PID, broker then terminate; a nonzero forwarder exit, exactly broker, forwarder, terminate; the client only after a zero exit; a timeout leaves two launches and no termination |
| EndToEnd.Deliver | memory_overlay.py:49 | one client read hands back the longest prefix of the reply that fits in 4096 bytes, with no error |
| EndToEnd.ReadRequestRoundTrip | memory_overlay.py:69-73 | the broker decodes the client's READ request to the same address and size |
| EndToEnd.ReadRequestServed | MemoryBridge.cpp:68-87 | a client READ request takes the broker's READ step for that address and size |
| EndToEnd.InitRoundTrip | memory_overlay.py:58-65 | `initialize` against the broker's INIT reply returns the broker's module lookup |
| EndToEnd.InitThenReadSession | MemoryBridge.cpp:59-90 | an INIT then a successful READ below 0xFFFFFFFF bytes writes the base's 8 LE bytes, then 0x00, then the read buffer |
| EndToEnd.ReadBytesEndToEnd | memory_overlay.py:67-80 | `read_bytes` against the broker gives the read buffer when the allocations and the read succeed, and `b''` otherwise, for sizes that fit one client read |
| EndToEnd.OversizedReadIsCut | memory_overlay.py:49 | a successful read of 4096 bytes or more, below 0xFFFFFFFF, comes back as only its first 4095 bytes |
| EndToEnd.ReadIntEndToEnd | memory_overlay.py:82-85 | `read_int` against the broker gives the signed value of the 4 bytes read, or None when the read or an allocation failed |
| EndToEnd.RelayRoundTrip | HandleForwarder.cpp:99-105 | a forwarder run that opens the pipe and writes exits 0, and the bytes it wrote, read by the broker, are the duplicated handle value |
| EndToEnd.FindPidInAnnouncement | launcher.py:53-55 | the launcher's pattern reads the broker's PID line back to the PID |
| EndToEnd.LauncherCapturesBridgePid | launcher.py:51-57 | with non-matching lines first, the captured PID is the one the broker printed |
| EndToEnd.ForwarderReadsLauncherArgument | HandleForwarder.cpp:38-42 | the forwarder parses `str(pid)` back to pid, and a nonzero PID passes its argument checks |
| EndToEnd.BridgePidReachesForwarder | launcher.py:67-68 | the forwarder the launcher starts is given an argument that parses to the broker's PID |
| EndToEnd.WorkedExample | MemoryBridge.cpp:65-67 | base 0x140000000 travels as `00 00 00 40 01 00 00 00`; a 4-byte READ at 0x140000010 is the 13 bytes listed |
| EndToEnd.ReadRequestLayout | memory_overlay.py:69-70 | for any address and size, a READ request is 0x02 followed by whichever 8 and 4 bytes decode to them, so the layout is unique |

## Left out

- Win32 and pywin32 calls are oracle inputs, not behaviour. This covers pipes, `ReadFile`/`WriteFile`, toolhelp snapshots, `OpenProcess`, `DuplicateHandle` and `GetProcessId`. Their access-right semantics cannot be observed from the code.
- How `NtReadVirtualMemory` is found (MemoryBridge.cpp:19-20, 134-138) is one boolean, and the read itself is an oracle result. Memory contents are not modelled.
- `Sleep` timing and the infinite polling and accept loops see a finite list of observations. A run that uses them up ends as "still polling" or "still connecting".
- Console logging, `SetConsoleTitleW`, `time.sleep`, `argparse`, `connect`, `close_pipe`, `main_loop` and the `__main__` blocks are not modelled.
- Concurrency between the broker, the forwarder and the client is not modelled. How the pipe splits the byte stream into chunks is an input to the session model.
- `FlushFileBuffers` after each command (MemoryBridge.cpp:89) and `DisconnectNamedPipe` at the end of a session (MemoryBridge.cpp:91) are not observable in the bytes, so they are not recorded.
- The broker's `CloseHandle` of the toolhelp snapshot and of each client pipe is not recorded.
- The broker's process handle leaks when client pipe creation fails (MemoryBridge.cpp:162). This is not recorded because the OS releases it at exit.
- `Popen` failures of the launcher are not modelled; the file-existence gate is.
- HandleForwarder.ParseUnsignedLong: `std::stoul` also skips leading whitespace and accepts a sign. The model treats an argument that does not start with a digit as the `invalid_argument` throw.
- Launcher.FindPid: Python's `\d` also matches non-ASCII decimal digits. The model recognises ASCII digits only.
- BridgeProtocol.ServeSession: after a READ chunk shorter than 13 bytes, the source reads stale buffer bytes. The model reports the session as undefined from that chunk on, and does not say what it sends, or whether the broker survives; `BridgeBootstrap.ServeLoop` therefore stops its account at such a session.
- Only the 64-bit build is modelled: handles and addresses are 8 bytes. On a 32-bit build the relay message would be `sizeof(HANDLE)` = 4 bytes (MemoryBridge.cpp:115, HandleForwarder.cpp:101), and `(PVOID)request->address` would cut the address to 32 bits (MemoryBridge.cpp:72).
- `WriteFile` is taken to write every byte it is given. `bytesWritten` is not checked by the source (MemoryBridge.cpp:67, 83, 86), and a partial write is not modelled.
- EndToEnd.OversizedReadIsCut: after a successful read of 0xFFFFFFFF bytes the broker sends nothing, and the client's `ReadFile` would wait forever. That wait is not modelled, so `EndToEnd.OversizedReadIsCut` covers sizes below 0xFFFFFFFF only.
- EndToEnd.Deliver: it assumes each broker reply reaches the client in a single pipe read. The byte-mode pipe could also split a reply or merge two replies.

=== FILE: bridge_bootstrap.dfy ===
/** The broker's startup and accept loop (MemoryBridge.cpp `main` and
    `ReceiveHandleFromForwarder`): announce the PID, take the relayed
    process handle off the one-shot relay pipe, poll for the module, then
    serve one client session per accepted connection. */
module BridgeBootstrap {
  import opened Wrappers
  import opened Bytes
  import opened Decimal
  import opened Search
  import opened BridgeProtocol

  /** `sizeof(HANDLE)` on the 64-bit target: the whole relay message. */
  const HandleSize: nat := 8

  /** The text before the PID on the broker's first output line. */
  const PidBanner: string := "Memory Bridge PID: "

  /** The first line the broker prints: the banner, its PID in decimal, and
      the newline `std::endl` adds. */
  function PidAnnouncement(pid: u32): (line: string)
    ensures |line| > |PidBanner| + 1
    ensures line[..|PidBanner|] == PidBanner && line[|line| - 1] == '\n'
    ensures AllDigits(line[|PidBanner|..|line| - 1])
    ensures ValueOf(line[|PidBanner|..|line| - 1]) == pid
  {
    var digits := ToDecimal(pid);
    ValueOfToDecimal(pid);
    var line := PidBanner + digits + "\n";
    assert line[|PidBanner|..|line| - 1] == digits;
    line
  }

  /** Oracle results of the relay-pipe server: whether `CreateNamedPipeA`
      and `ConnectNamedPipe` succeeded, whether `ReadFile` succeeded, and the
      bytes it read. */
  datatype RelayServerEnv = RelayServerEnv(created: bool, connected: bool, readOk: bool, received: seq<byte>)

  /** The handle value returned (0 for NULL) and what happened to the relay
      pipe on the way out. */
  datatype Received = Received(handle: u64, pipeClosed: bool, pipeDisconnected: bool)

  predicate RelaySucceeds(env: RelayServerEnv) {
    env.created && env.connected && env.readOk && |env.received| == HandleSize
  }

  /** `ReceiveHandleFromForwarder`. */
  function ReceiveHandleFromForwarder(env: RelayServerEnv): (r: Received)
    ensures RelaySucceeds(env) ==> LE64(r.handle) == env.received
    ensures !RelaySucceeds(env) ==> r.handle == 0
    ensures r.pipeClosed <==> env.created
    ensures r.pipeDisconnected <==> RelaySucceeds(env)
  {
    if !env.created then Received(0, false, false)
    else if !env.connected then Received(0, true, false)
    else if !env.readOk || |env.received| != HandleSize then Received(0, true, false)
    else
      LE64OfDecode(env.received);
      Received(DecodeLE(env.received), true, true)
  }

  /** Oracle results of the broker's startup: whether `NtReadVirtualMemory`
      was found in ntdll, the relay pipe, and what each round of the module
      polling loop saw. */
  datatype BootEnv = BootEnv(ntReadResolved: bool, relay: RelayServerEnv, polls: seq<TargetView>)

  /** Exit code 1, still polling for the module when the observations end,
      or ready to serve with the received handle and the module base. */
  datatype BootOutcome = BootFailed(code: int) | AwaitingModule | Ready(process: u64, base: u64)

  /** The bootstrap part of `main`, up to the accept loop. */
  function Bootstrap(env: BootEnv): (r: BootOutcome)
    ensures !env.ntReadResolved ==> r == BootFailed(1)
    ensures env.ntReadResolved && ReceiveHandleFromForwarder(env.relay).handle == 0 ==> r == BootFailed(1)
    ensures r.BootFailed? ==> r.code == 1
    ensures r.BootFailed? ==> !env.ntReadResolved || ReceiveHandleFromForwarder(env.relay).handle == 0
    ensures r.Ready? ==> r.base != 0 && r.process != 0 && r.process == ReceiveHandleFromForwarder(env.relay).handle
    ensures r.Ready? ==> exists i :: (0 <= i < |env.polls| && ModuleBaseAddress(env.polls[i]) == r.base
      && forall j :: 0 <= j < i ==> ModuleBaseAddress(env.polls[j]) == 0)
    ensures r.AwaitingModule? <==> (env.ntReadResolved && ReceiveHandleFromForwarder(env.relay).handle != 0
      && forall i :: 0 <= i < |env.polls| ==> ModuleBaseAddress(env.polls[i]) == 0)
  {
    if !env.ntReadResolved then BootFailed(1)
    else
      var process := ReceiveHandleFromForwarder(env.relay).handle;
      if process == 0 then BootFailed(1)
      else match FirstMatch(env.polls, (v: TargetView) => ModuleBaseAddress(v) != 0)
        case None => AwaitingModule
        case Some(i) => Ready(process, ModuleBaseAddress(env.polls[i]))
  }

  /** One round of the accept loop: the client pipe could not be created,
      no client connected, or a session ran on the given chunks. */
  datatype Accept = CreateFailed | ConnectFailed | Connected(chunks: seq<seq<byte>>, envs: seq<Env>)

  predicate WellFormedAccept(a: Accept) {
    a.Connected? ==> |a.chunks| == |a.envs|
  }

  /** The session a round served, if any. */
  function SessionOf(a: Accept): Option<SessionResult>
    requires WellFormedAccept(a)
  {
    match a
    case Connected(chunks, envs) => Some(ServeSession(chunks, envs))
    case _ => None
  }

  /** The round's session ended the broker process. */
  predicate EndsBroker(a: Accept)
    requires WellFormedAccept(a)
  {
    a.Connected? && ServeSession(a.chunks, a.envs).Aborted?
  }

  /** The round's session hit a truncated READ, after which the model does
      not know what the broker does, including whether it survives. */
  predicate LosesTrack(a: Accept)
    requires WellFormedAccept(a)
  {
    a.Connected? && ServeSession(a.chunks, a.envs).Undefined?
  }

  /** The model's account of the loop stops with this round: `main`
      returns, the process ends, or the broker's state is undetermined. */
  predicate StopsLoop(a: Accept)
    requires WellFormedAccept(a)
  {
    a.CreateFailed? || EndsBroker(a) || LosesTrack(a)
  }

  /** What one round amounts to for the loop: no pipe, no client, or a
      session with its result. */
  datatype Round = NoPipe | NoClient | Session(result: SessionResult)

  function RoundOf(a: Accept): (r: Round)
    requires WellFormedAccept(a)
    ensures r.NoPipe? <==> a.CreateFailed?
    ensures r.Session? <==> a.Connected?
    ensures r.Session? ==> Some(r.result) == SessionOf(a)
    ensures r.Session? ==> (r.result.Aborted? <==> EndsBroker(a)) && (r.result.Undefined? <==> LosesTrack(a))
  {
    match a
    case CreateFailed => NoPipe
    case ConnectFailed => NoClient
    case Connected(chunks, envs) => Session(ServeSession(chunks, envs))
  }

  predicate Crashes(r: Round) {
    r.Session? && r.result.Aborted?
  }

  predicate Undetermined(r: Round) {
    r.Session? && r.result.Undefined?
  }

  /** The model's account of the loop stops with this round. */
  predicate Ends(r: Round) {
    r.NoPipe? || Crashes(r) || Undetermined(r)
  }

  function SessionIn(r: Round): Option<SessionResult> {
    if r.Session? then Some(r.result) else None
  }

  /** Where the loop stands after the observed rounds: still listening,
      returned from `main` with a code, ended by an uncaught exception, or
      past a session whose continuation the model does not determine. */
  datatype Ending = Listening | Exit(code: int) | Crashed | Unknown

  /** How the loop ended and the per-round sessions. */
  datatype ServeOutcome = ServeOutcome(ending: Ending, sessions: seq<Option<SessionResult>>)

  /** The loop over the rounds' outcomes: it stops at the first round
      without a pipe (return 1), whose session crashed, or whose session
      left the broker's state undetermined. */
  function RunRounds(rounds: seq<Round>): (r: ServeOutcome)
    ensures |r.sessions| <= |rounds|
    ensures !r.ending.Listening? <==> exists i :: 0 <= i < |rounds| && Ends(rounds[i])
    ensures r.ending.Listening? ==> |r.sessions| == |rounds|
    ensures r.ending.Exit? ==> r.ending.code == 1 && |r.sessions| < |rounds| && rounds[|r.sessions|].NoPipe?
    ensures r.ending.Crashed? ==> |r.sessions| > 0 && Crashes(rounds[|r.sessions| - 1])
    ensures r.ending.Unknown? ==> |r.sessions| > 0 && Undetermined(rounds[|r.sessions| - 1])
    ensures forall i :: 0 <= i < |r.sessions| ==> !rounds[i].NoPipe? && r.sessions[i] == SessionIn(rounds[i])
    ensures forall i :: 0 <= i < |r.sessions| ==>
      (Ends(rounds[i]) <==> (r.ending.Crashed? || r.ending.Unknown?) && i == |r.sessions| - 1)
  {
    if |rounds| == 0 then ServeOutcome(Listening, [])
    else if rounds[0].NoPipe? then ServeOutcome(Exit(1), [])
    else if Crashes(rounds[0]) then ServeOutcome(Crashed, [SessionIn(rounds[0])])
    else if Undetermined(rounds[0]) then ServeOutcome(Unknown, [SessionIn(rounds[0])])
    else
      var rest := RunRounds(rounds[1..]);
      ServeOutcome(rest.ending, [SessionIn(rounds[0])] + rest.sessions)
  }

  /** The `while (true)` accept loop of `main`, over the rounds observed. */
  function ServeLoop(accepts: seq<Accept>): (r: ServeOutcome)
    requires forall i :: 0 <= i < |accepts| ==> WellFormedAccept(accepts[i])
    ensures |r.sessions| <= |accepts|
    ensures !r.ending.Listening? <==> exists i :: 0 <= i < |accepts| && StopsLoop(accepts[i])
    ensures r.ending.Listening? ==> |r.sessions| == |accepts|
    ensures r.ending.Exit? ==> r.ending.code == 1 && |r.sessions| < |accepts| && accepts[|r.sessions|].CreateFailed?
    ensures r.ending.Crashed? ==> |r.sessions| > 0 && EndsBroker(accepts[|r.sessions| - 1])
    ensures r.ending.Unknown? ==> |r.sessions| > 0 && LosesTrack(accepts[|r.sessions| - 1])
    ensures forall i :: 0 <= i < |r.sessions| ==> !accepts[i].CreateFailed? && r.sessions[i] == SessionOf(accepts[i])
    ensures forall i :: 0 <= i < |r.sessions| ==>
      (StopsLoop(accepts[i]) <==> (r.ending.Crashed? || r.ending.Unknown?) && i == |r.sessions| - 1)
  {
    var rounds := RoundsOf(accepts);
    var r := RunRounds(rounds);
    LoopStops(accepts, rounds, r);
    r
  }

  /** The stopping clauses of `ServeLoop`, read off those of `RunRounds`. */
  lemma LoopStops(accepts: seq<Accept>, rounds: seq<Round>, r: ServeOutcome)
    requires forall i :: 0 <= i < |accepts| ==> WellFormedAccept(accepts[i])
    requires rounds == RoundsOf(accepts) && r == RunRounds(rounds)
    ensures !r.ending.Listening? <==> exists i :: 0 <= i < |accepts| && StopsLoop(accepts[i])
    ensures r.ending.Exit? ==> r.ending.code == 1 && |r.sessions| < |accepts| && accepts[|r.sessions|].CreateFailed?
    ensures r.ending.Crashed? ==> |r.sessions| > 0 && EndsBroker(accepts[|r.sessions| - 1])
    ensures r.ending.Unknown? ==> |r.sessions| > 0 && LosesTrack(accepts[|r.sessions| - 1])
    ensures forall i :: 0 <= i < |r.sessions| ==>
      (StopsLoop(accepts[i]) <==> (r.ending.Crashed? || r.ending.Unknown?) && i == |r.sessions| - 1)
  {
  }

  function RoundsOf(accepts: seq<Accept>): (rounds: seq<Round>)
    requires forall i :: 0 <= i < |accepts| ==> WellFormedAccept(accepts[i])
    ensures |rounds| == |accepts|
    ensures forall i :: 0 <= i < |accepts| ==>
      rounds[i].NoPipe? == accepts[i].CreateFailed? && Crashes(rounds[i]) == EndsBroker(accepts[i])
      && Undetermined(rounds[i]) == LosesTrack(accepts[i]) && Ends(rounds[i]) == StopsLoop(accepts[i])
      && SessionIn(rounds[i]) == SessionOf(accepts[i])
  {
    seq(|accepts|, i requires 0 <= i < |accepts| => RoundOf(accepts[i]))
  }

  /** A session that opens with a one-byte READ stops the account of the
      loop, whatever the later chunks and rounds are: the broker then reads
      stale bytes, and may well fail an allocation and end. */
  lemma TruncatedReadStopsLoop(frame: seq<byte>, env: Env)
    ensures ServeLoop([Connected([[CmdRead], frame], [env, env]), ConnectFailed])
      == ServeOutcome(Unknown, [Some(Undefined([], 0))])
  {
  }
}

=== FILE: bridge_protocol.dfy ===
/** The broker's side of the client protocol (MemoryBridge.cpp): status
    classification of the low-level read, the packed request layout, the
    module lookup INIT reports, and one session served as a fold over the
    chunks `ReadFile` delivered. The OS calls are oracles: each chunk comes
    with an `Env` that says what the toolhelp snapshot and the read call
    returned while that chunk was handled. */
module BridgeProtocol {
  import opened Wrappers
  import opened Bytes
  import opened Search

  /** Command bytes of the client protocol (`enum class Command : uint8_t`). */
  const CmdInit: byte := 0x01
  const CmdRead: byte := 0x02

  /** `sizeof(ReadRequest)` and `sizeof(InitResponse)` under `#pragma pack(1)`. */
  const ReadRequestSize: nat := 12
  const InitResponseSize: nat := 8

  /** A READ frame: the command byte and the packed request after it. */
  const ReadFrameSize: nat := 1 + ReadRequestSize

  /** The component whose load address INIT reports. */
  const ModuleName: string := "main.dll"

  /** `NT_SUCCESS` on the 32-bit pattern of an NTSTATUS: success and
      informational codes pass, warning and error codes (bit 31 set) fail. */
  function NtSuccess(status: u32): (ok: bool)
    ensures ok <==> status < 0x8000_0000
  {
    ToSigned32(status) >= 0
  }

  /** Well-known codes land on the side the severity field says. */
  lemma NtSuccessOnKnownCodes()
    ensures NtSuccess(0x0000_0000)      // STATUS_SUCCESS
    ensures NtSuccess(0x4000_0000)      // STATUS_OBJECT_NAME_EXISTS (informational)
    ensures !NtSuccess(0x8000_000D)     // STATUS_PARTIAL_COPY (warning)
    ensures !NtSuccess(0xC000_0005)     // STATUS_ACCESS_VIOLATION (error)
  {
  }

  /** `struct ReadRequest { uint64_t address; uint32_t size; }`. */
  datatype ReadRequest = ReadRequest(address: u64, size: u32)

  /** One `MODULEENTRY32`: the module name and its base address. */
  datatype ModuleEntry = ModuleEntry(name: string, base: u64)

  /** What the OS shows of the target when a lookup runs: the pid
      `GetProcessId` reports for the held handle (0 when it fails) and the
      module snapshot (None when `CreateToolhelp32Snapshot` fails). */
  datatype TargetView = TargetView(pid: u32, modules: Option<seq<ModuleEntry>>)

  /** One `NtReadVirtualMemory` call: the NTSTATUS bit pattern, the count it
      stores through its last argument, and the bytes it wrote into the
      buffer, from the buffer's start. */
  datatype ReadOutcome = ReadOutcome(status: u32, bytesRead: u32, written: seq<byte>)

  /** The oracle results in force while one chunk is handled: the target
      as the lookup sees it, whether `std::vector<BYTE>(size)` could
      allocate the read buffer, what the read call did, and whether the
      reply buffer's allocations (`reserve` and `insert`) succeeded. A
      failed allocation throws `std::bad_alloc`, which nothing catches. */
  datatype Env = Env(target: TargetView, bufferAllocated: bool, read: ReadOutcome, payloadAllocated: bool)

  predicate IsWantedModule(e: ModuleEntry) {
    EqualsIgnoreCase(e.name, ModuleName)
  }

  /** `i` is the first entry of the snapshot named like the wanted module. */
  predicate FirstWantedAt(ms: seq<ModuleEntry>, i: int) {
    0 <= i < |ms| && IsWantedModule(ms[i]) && forall j :: 0 <= j < i ==> !IsWantedModule(ms[j])
  }

  /** `GetModuleBaseAddress(hProcess, "main.dll")`. */
  function ModuleBaseAddress(view: TargetView): (base: u64)
    ensures view.pid == 0 || view.modules.None? ==> base == 0
    ensures view.pid != 0 && view.modules.Some? ==>
      forall i :: FirstWantedAt(view.modules.value, i) ==> base == view.modules.value[i].base
    ensures view.modules.Some? && (forall i :: 0 <= i < |view.modules.value| ==> !IsWantedModule(view.modules.value[i]))
      ==> base == 0
  {
    if view.pid == 0 then 0
    else match view.modules
      case None => 0
      case Some(ms) =>
        match FirstMatch(ms, IsWantedModule)
        case None => 0
        case Some(i) => ms[i].base
  }

  /** Decoding of the packed request that follows the command byte; None
      when fewer than 13 bytes arrived (the source then reads stale buffer
      bytes). */
  function DecodeReadRequest(frame: seq<byte>): (r: Option<ReadRequest>)
    ensures r.Some? <==> |frame| >= ReadFrameSize
    ensures r.Some? ==> LE64(r.value.address) == frame[1..9] && LE32(r.value.size) == frame[9..13]
  {
    if |frame| < ReadFrameSize then None
    else
      Pow256Widths();
      EncodeDecodeLE(frame[1..9]);
      EncodeDecodeLE(frame[9..13]);
      Some(ReadRequest(DecodeLE(frame[1..9]), DecodeLE(frame[9..13])))
  }

  /** `size` zero bytes: a freshly constructed `std::vector<BYTE>(size)`. */
  function Zeros(n: nat): (z: seq<byte>)
    ensures |z| == n && forall i :: 0 <= i < n ==> z[i] == 0
  {
    seq(n, _ => 0)
  }

  /** The read buffer after the call: the bytes the call wrote, over zeros,
      never longer than the `size` the buffer was built with. */
  function ReadBuffer(size: nat, written: seq<byte>): (buf: seq<byte>)
    ensures |buf| == size
    ensures forall i :: 0 <= i < size && i < |written| ==> buf[i] == written[i]
    ensures forall i :: |written| <= i < size ==> buf[i] == 0
  {
    if |written| >= size then written[..size] else written + Zeros(size - |written|)
  }

  /** The broker's success test for one read: NT_SUCCESS and every
      requested byte transferred. */
  predicate ReadSucceeded(size: u32, out: ReadOutcome) {
    NtSuccess(out.status) && out.bytesRead == size
  }

  /** The reply to one decoded READ request, as built in memory. */
  function ReadReply(req: ReadRequest, out: ReadOutcome): (reply: seq<byte>)
    ensures |reply| >= 1
    ensures reply[0] == 0 <==> out.status < 0x8000_0000 && out.bytesRead == req.size
    ensures reply[0] == 0 ==> |reply| == 1 + req.size && reply[1..] == ReadBuffer(req.size, out.written)
    ensures reply[0] != 0 ==> reply == [1]
  {
    var status: byte := if NtSuccess(out.status) && out.bytesRead == req.size then 0 else 1;
    if status == 0 then [status] + ReadBuffer(req.size, out.written) else [status]
  }

  /** `WriteFile`'s length argument is a DWORD: a payload of 2^32 bytes or
      more is sent as its first `length mod 2^32` bytes. */
  const DwordLimit: nat := 0x1_0000_0000

  function WriteFileBytes(payload: seq<byte>): (sent: seq<byte>)
    ensures |payload| < DwordLimit ==> sent == payload
    ensures |sent| == |payload| % DwordLimit && sent <= payload
  {
    payload[..|payload| % DwordLimit]
  }

  /** What one received chunk leads to: `Skip` for a zero-byte read (the
      loop continues without a flush), `Reply(bytes)` for the bytes written
      before the flush (none for an unknown command), `Truncated` for a READ
      whose 13-byte frame did not arrive whole, `Crash` when an allocation
      of the READ path failed and the uncaught `std::bad_alloc` ended the
      broker. */
  datatype Step = Skip | Reply(bytes: seq<byte>) | Truncated | Crash

  /** Both allocations the READ path makes succeed: the read buffer always,
      the reply buffer only when the read succeeded. */
  predicate Allocates(req: ReadRequest, env: Env) {
    env.bufferAllocated && (ReadSucceeded(req.size, env.read) ==> env.payloadAllocated)
  }

  /** The READ path after decoding: allocate, read, build the reply, write it. */
  function ReadStep(req: ReadRequest, env: Env): (step: Step)
    ensures step.Crash? <==> !Allocates(req, env)
    ensures !step.Crash? ==> step.Reply?
    ensures step.Reply? && !ReadSucceeded(req.size, env.read) ==> step.bytes == [1]
    ensures step.Reply? && ReadSucceeded(req.size, env.read) && req.size < DwordLimit - 1 ==>
      step.bytes == [0] + ReadBuffer(req.size, env.read.written)
    ensures step.Reply? && ReadSucceeded(req.size, env.read) && req.size == DwordLimit - 1 ==> step.bytes == []
  {
    if !Allocates(req, env) then Crash
    else Reply(WriteFileBytes(ReadReply(req, env.read)))
  }

  /** A successful read of the largest size a request can carry sends no
      byte at all: its 2^32-byte reply is handed to `WriteFile` as length 0. */
  lemma LargestReadSendsNothing(req: ReadRequest, env: Env)
    requires req.size == DwordLimit - 1
    requires Allocates(req, env) && ReadSucceeded(req.size, env.read)
    ensures |ReadReply(req, env.read)| == DwordLimit
    ensures ReadStep(req, env) == Reply([])
  {
  }

  predicate IsReadFrame(chunk: seq<byte>) {
    |chunk| >= ReadFrameSize && chunk[0] == CmdRead
  }

  /** A whole READ frame whose allocations fail. */
  predicate AllocationFails(chunk: seq<byte>, env: Env) {
    IsReadFrame(chunk) && DecodeReadRequest(chunk).Some? && !Allocates(DecodeReadRequest(chunk).value, env)
  }

  /** The chunk ends what the model can say about the session. */
  predicate Stops(chunk: seq<byte>, env: Env) {
    IsTruncatedRead(chunk) || AllocationFails(chunk, env)
  }

  predicate IsTruncatedRead(chunk: seq<byte>) {
    |chunk| > 0 && chunk[0] == CmdRead && |chunk| < ReadFrameSize
  }

  /** One iteration of the `HandlePythonConnection` loop. */
  function HandleChunk(chunk: seq<byte>, env: Env): (step: Step)
    ensures step.Skip? <==> |chunk| == 0
    ensures step.Truncated? <==> IsTruncatedRead(chunk)
    ensures step.Crash? <==> AllocationFails(chunk, env)
    ensures |chunk| > 0 && chunk[0] == CmdInit ==>
      step.Reply? && |step.bytes| == InitResponseSize && DecodeLE(step.bytes) == ModuleBaseAddress(env.target)
    ensures |chunk| > 0 && chunk[0] != CmdInit && chunk[0] != CmdRead ==> step == Reply([])
    ensures IsReadFrame(chunk) ==>
      exists req :: DecodeReadRequest(chunk) == Some(req) && step == ReadStep(req, env)
  {
    if |chunk| == 0 then Skip
    else if chunk[0] == CmdInit then Reply(LE64(ModuleBaseAddress(env.target)))
    else if chunk[0] == CmdRead then
      match DecodeReadRequest(chunk)
      case None => Truncated
      case Some(req) => ReadStep(req, env)
    else Reply([])
  }

  /** Bytes after the first complete command of a chunk are never looked
      at: a second request sent in the same chunk is dropped. */
  lemma TrailingBytesIgnored(chunk: seq<byte>, extra: seq<byte>, env: Env)
    requires |chunk| > 0 && !IsTruncatedRead(chunk)
    ensures HandleChunk(chunk + extra, env) == HandleChunk(chunk, env)
  {
    if chunk[0] == CmdRead {
      assert (chunk + extra)[1..9] == chunk[1..9];
      assert (chunk + extra)[9..13] == chunk[9..13];
    }
  }

  /** The bytes a session wrote, and where it stopped being defined
      (`Undefined`) or ended the broker (`Aborted`). */
  datatype SessionResult =
    | Served(output: seq<byte>)
    | Undefined(output: seq<byte>, at: nat)
    | Aborted(output: seq<byte>, at: nat)

  /** `out` was written before the `n` chunks that led to `r`. */
  function After(out: seq<byte>, n: nat, r: SessionResult): SessionResult {
    match r
    case Served(o) => Served(out + o)
    case Undefined(o, k) => Undefined(out + o, k + n)
    case Aborted(o, k) => Aborted(out + o, k + n)
  }

  /** One session: the chunks `ReadFile` returned, in order, until it failed
      or the client disconnected. A truncated READ makes the rest of the
      session undefined; a failed allocation ends the broker there. */
  function ServeSession(chunks: seq<seq<byte>>, envs: seq<Env>): (r: SessionResult)
    requires |chunks| == |envs|
    ensures r.Served? <==> forall i :: 0 <= i < |chunks| ==> !Stops(chunks[i], envs[i])
    ensures r.Undefined? ==> r.at < |chunks| && IsTruncatedRead(chunks[r.at])
    ensures r.Aborted? ==> r.at < |chunks| && AllocationFails(chunks[r.at], envs[r.at])
    ensures !r.Served? ==> forall j :: 0 <= j < r.at ==> !Stops(chunks[j], envs[j])
  {
    if |chunks| == 0 then Served([])
    else
      var step := HandleChunk(chunks[0], envs[0]);
      if step.Truncated? then Undefined([], 0)
      else if step.Crash? then Aborted([], 0)
      else
        assert !Stops(chunks[0], envs[0]);
        var rest := ServeSession(chunks[1..], envs[1..]);
        TailStops(chunks, envs);
        After(StepBytes(step), 1, rest)
  }

  /** Dropping the first chunk shifts every later chunk down by one. */
  lemma TailStops(chunks: seq<seq<byte>>, envs: seq<Env>)
    requires |chunks| == |envs| > 0
    ensures forall i :: 0 <= i < |chunks| - 1 ==>
      Stops(chunks[1..][i], envs[1..][i]) == Stops(chunks[i + 1], envs[i + 1])
  {
  }

  /** Prepending in two steps is prepending the joined bytes and counts. */
  lemma AfterAfter(a: seq<byte>, n: nat, b: seq<byte>, m: nat, r: SessionResult)
    ensures After(a, n, After(b, m, r)) == After(a + b, n + m, r)
  {
    match r
    case Served(o) => assert a + (b + o) == (a + b) + o;
    case Undefined(o, k) => assert a + (b + o) == (a + b) + o;
    case Aborted(o, k) => assert a + (b + o) == (a + b) + o;
  }

  lemma AfterNothing(r: SessionResult)
    ensures After([], 0, r) == r
  {
    match r
    case Served(o) => assert [] + o == o;
    case Undefined(o, k) => assert [] + o == o;
    case Aborted(o, k) => assert [] + o == o;
  }

  /** The bytes a step wrote. */
  function StepBytes(step: Step): seq<byte> {
    if step.Reply? then step.bytes else []
  }

  /** A chunk that does not stop the session contributes its bytes ahead of
      the rest of the session. */
  lemma SessionCons(chunks: seq<seq<byte>>, envs: seq<Env>)
    requires |chunks| == |envs| && |chunks| > 0
    requires !Stops(chunks[0], envs[0])
    ensures ServeSession(chunks, envs) == After(StepBytes(HandleChunk(chunks[0], envs[0])), 1, ServeSession(chunks[1..], envs[1..]))
  {
  }

  /** A one-chunk session is exactly the broker's step on that chunk:
      its reply is the whole output, a zero-byte read writes nothing, and
      a truncated READ or a failed allocation stops it at once. */
  lemma SingleChunkSession(c: seq<byte>, e: Env)
    ensures HandleChunk(c, e).Reply? ==> ServeSession([c], [e]) == Served(HandleChunk(c, e).bytes)
    ensures HandleChunk(c, e).Skip? ==> ServeSession([c], [e]) == Served([])
    ensures HandleChunk(c, e).Truncated? ==> ServeSession([c], [e]) == Undefined([], 0)
    ensures HandleChunk(c, e).Crash? ==> ServeSession([c], [e]) == Aborted([], 0)
  {
    if !Stops(c, e) {
      SessionCons([c], [e]);
      assert [c][1..] == [] && [e][1..] == [];
      assert StepBytes(HandleChunk(c, e)) + [] == StepBytes(HandleChunk(c, e));
    }
  }

  /** A session is the concatenation of its parts: what the first chunks
      wrote comes before what the later ones write. */
  lemma {:induction false} SessionAppend(c1: seq<seq<byte>>, e1: seq<Env>, c2: seq<seq<byte>>, e2: seq<Env>)
    requires |c1| == |e1| && |c2| == |e2|
    requires ServeSession(c1, e1).Served?
    ensures ServeSession(c1 + c2, e1 + e2) == After(ServeSession(c1, e1).output, |c1|, ServeSession(c2, e2))
  {
    if |c1| == 0 {
      assert c1 + c2 == c2 && e1 + e2 == e2;
      AfterNothing(ServeSession(c2, e2));
    } else {
      var c, e := c1 + c2, e1 + e2;
      assert c[1..] == c1[1..] + c2 && e[1..] == e1[1..] + e2;
      assert c[0] == c1[0] && e[0] == e1[0];
      assert !Stops(c1[0], e1[0]);
      var b := StepBytes(HandleChunk(c1[0], e1[0]));
      var tail := ServeSession(c1[1..], e1[1..]);
      var rest := ServeSession(c2, e2);
      SessionCons(c1, e1);
      assert tail.Served? && ServeSession(c1, e1).output == b + tail.output;
      SessionAppend(c1[1..], e1[1..], c2, e2);
      assert !Stops(c[0], e[0]);
      SessionCons(c, e);
      assert ServeSession(c, e) == After(b, 1, After(tail.output, |c1| - 1, rest));
      AfterAfter(b, 1, tail.output, |c1| - 1, rest);
    }
  }

  /** A zero-byte read anywhere before the session stops changes nothing
      the client sees. */
  lemma EmptyChunkInvisible(c1: seq<seq<byte>>, e1: seq<Env>, e: Env, c2: seq<seq<byte>>, e2: seq<Env>)
    requires |c1| == |e1| && |c2| == |e2|
    requires ServeSession(c1, e1).Served?
    ensures ServeSession(c1 + [[]] + c2, e1 + [e] + e2).output == ServeSession(c1 + c2, e1 + e2).output
  {
    var out := ServeSession(c1, e1).output;
    assert ServeSession([[]], [e]) == Served([]);
    SessionAppend(c1, e1, [[]], [e]);
    assert ServeSession(c1 + [[]], e1 + [e]).output == out + [];
    SessionAppend(c1 + [[]], e1 + [e], c2, e2);
    SessionAppend(c1, e1, c2, e2);
    assert out + [] == out;
  }

  /** `n` copies of `b`, back to back. */
  function Repeat(b: seq<byte>, n: nat): (r: seq<byte>)
    ensures |r| == n * |b|
  {
    if n == 0 then [] else b + Repeat(b, n - 1)
  }

  /** INIT is idempotent while the target's module list does not change:
      every INIT reply of the session is the same 8 bytes. The lookup is
      re-run per request, so the promise needs the same view each time. */
  lemma {:induction false} InitIdempotent(n: nat, envs: seq<Env>, view: TargetView)
    requires |envs| == n
    requires forall i :: 0 <= i < n ==> envs[i].target == view
    ensures ServeSession(seq(n, _ => [CmdInit]), envs) == Served(Repeat(LE64(ModuleBaseAddress(view)), n))
  {
    var chunks: seq<seq<byte>> := seq(n, _ => [CmdInit]);
    if n > 0 {
      assert chunks[1..] == seq(n - 1, _ => [CmdInit]);
      InitIdempotent(n - 1, envs[1..], view);
      assert HandleChunk(chunks[0], envs[0]) == Reply(LE64(ModuleBaseAddress(view)));
    }
  }
}

=== FILE: bytes.dfy ===
/** Fixed-width unsigned integers and their little-endian byte layout, the
    native byte order of the x86 and x64 Windows targets of the system. */
module Bytes {

  type byte = x: int | 0 <= x < 0x100
  type u32 = x: int | 0 <= x < 0x1_0000_0000
  type u64 = x: int | 0 <= x < 0x1_0000_0000_0000_0000

  /** The number of distinct values `n` bytes can hold. */
  function Pow256(n: nat): (r: nat)
    ensures r >= 1
  {
    if n == 0 then 1 else 256 * Pow256(n - 1)
  }

  lemma Pow256Widths()
    ensures Pow256(4) == 0x1_0000_0000
    ensures Pow256(8) == 0x1_0000_0000_0000_0000
  {
  }

  /** The `n`-byte little-endian layout of `x`: least significant byte first. */
  function EncodeLE(x: nat, n: nat): (r: seq<byte>)
    requires x < Pow256(n)
    ensures |r| == n
  {
    if n == 0 then [] else [x % 256] + EncodeLE(x / 256, n - 1)
  }

  /** The unsigned value of a little-endian byte string. */
  function DecodeLE(bs: seq<byte>): (x: nat)
    ensures x < Pow256(|bs|)
  {
    if |bs| == 0 then 0 else bs[0] + 256 * DecodeLE(bs[1..])
  }

  /** Decoding an encoding gives the value back. */
  lemma {:induction false} DecodeEncodeLE(x: nat, n: nat)
    requires x < Pow256(n)
    ensures DecodeLE(EncodeLE(x, n)) == x
  {
    if n > 0 {
      var r := EncodeLE(x, n);
      assert r[1..] == EncodeLE(x / 256, n - 1);
      DecodeEncodeLE(x / 256, n - 1);
    }
  }

  /** Encoding a decoded byte string at its own width gives the bytes back. */
  lemma {:induction false} EncodeDecodeLE(bs: seq<byte>)
    ensures EncodeLE(DecodeLE(bs), |bs|) == bs
  {
    if |bs| > 0 {
      var x := DecodeLE(bs);
      assert x % 256 == bs[0];
      assert x / 256 == DecodeLE(bs[1..]);
      EncodeDecodeLE(bs[1..]);
    }
  }

  /** The 8-byte layout of a `uint64_t` / `uintptr_t` / `HANDLE` value. */
  function LE64(x: u64): (r: seq<byte>)
    ensures |r| == 8 && DecodeLE(r) == x
  {
    Pow256Widths();
    DecodeEncodeLE(x, 8);
    EncodeLE(x, 8)
  }

  /** The 4-byte layout of a `uint32_t` value. */
  function LE32(x: u32): (r: seq<byte>)
    ensures |r| == 4 && DecodeLE(r) == x
  {
    Pow256Widths();
    DecodeEncodeLE(x, 4);
    EncodeLE(x, 4)
  }

  /** Every 8-byte string is the layout of exactly the value it decodes to. */
  lemma LE64OfDecode(bs: seq<byte>)
    requires |bs| == 8
    ensures DecodeLE(bs) < 0x1_0000_0000_0000_0000
    ensures LE64(DecodeLE(bs)) == bs
  {
    Pow256Widths();
    EncodeDecodeLE(bs);
  }

  /** At a fixed width, the value determines the bytes. */
  lemma DecodeLEInjective(a: seq<byte>, b: seq<byte>)
    requires |a| == |b| && DecodeLE(a) == DecodeLE(b)
    ensures a == b
  {
    EncodeDecodeLE(a);
    EncodeDecodeLE(b);
  }

  /** The two's-complement reading of a 32-bit pattern, as a C `int32_t`
      cast or Python's `struct.unpack('i', ...)` gives it. */
  function ToSigned32(x: u32): (v: int)
    ensures -0x8000_0000 <= v < 0x8000_0000
    ensures (v - x) % 0x1_0000_0000 == 0
    ensures v >= 0 <==> x < 0x8000_0000
  {
    if x < 0x8000_0000 then x else x - 0x1_0000_0000
  }
}

=== FILE: decimal.dfy ===
/** Unsigned decimal text: what C++ `operator<<` and Python `str()` print for
    a non-negative integer, and what a run of ASCII digits is worth. */
module Decimal {

  predicate IsDigit(c: char) {
    '0' <= c <= '9'
  }

  predicate AllDigits(s: string) {
    forall i :: 0 <= i < |s| ==> IsDigit(s[i])
  }

  function DigitChar(d: nat): (c: char)
    requires d < 10
    ensures IsDigit(c)
  {
    (48 + d) as char
  }

  function DigitValue(c: char): (d: nat)
    requires IsDigit(c)
    ensures d < 10 && DigitChar(d) == c
  {
    c as int - 48
  }

  /** The shortest decimal spelling of `n`: digits only, no leading zero. */
  function ToDecimal(n: nat): (s: string)
    ensures |s| >= 1 && AllDigits(s)
    ensures s[0] == '0' ==> n == 0 && |s| == 1
  {
    if n < 10 then [DigitChar(n)] else ToDecimal(n / 10) + [DigitChar(n % 10)]
  }

  /** The value of a string of decimal digits, most significant first. */
  function ValueOf(s: string): (n: nat)
    requires AllDigits(s)
  {
    if |s| == 0 then 0 else 10 * ValueOf(s[..|s| - 1]) + DigitValue(s[|s| - 1])
  }

  /** Printing then parsing a number gives the number back. */
  lemma {:induction false} ValueOfToDecimal(n: nat)
    ensures ValueOf(ToDecimal(n)) == n
  {
    var s := ToDecimal(n);
    if n >= 10 {
      var t := ToDecimal(n / 10);
      assert s[..|s| - 1] == t;
      ValueOfToDecimal(n / 10);
    }
  }

  /** `k` zero digits. */
  function ZeroDigits(k: nat): (z: string)
    ensures |z| == k && AllDigits(z)
  {
    seq(k, _ => '0')
  }

  /** A leading zero adds nothing to a digit string's value. */
  lemma {:induction false} ValueOfLeadingZero(t: string)
    requires AllDigits(t)
    ensures ValueOf(['0'] + t) == ValueOf(t)
  {
    if |t| > 0 {
      var z := ['0'] + t;
      assert z[..|z| - 1] == ['0'] + t[..|t| - 1];
      ValueOfLeadingZero(t[..|t| - 1]);
    }
  }

  /** The longest prefix of `s` made of digits: what a greedy `\d+` or the
      digit scan of `strtoul` consumes. */
  function LeadingDigits(s: string): (p: string)
    ensures |p| <= |s| && p == s[..|p|] && AllDigits(p)
    ensures |p| < |s| ==> !IsDigit(s[|p|])
  {
    if |s| == 0 || !IsDigit(s[0]) then [] else [s[0]] + LeadingDigits(s[1..])
  }

  /** A digit string followed by a non-digit is its own leading digit run. */
  lemma {:induction false} LeadingDigitsOfDigitsThen(d: string, rest: string)
    requires AllDigits(d)
    requires |rest| == 0 || !IsDigit(rest[0])
    ensures LeadingDigits(d + rest) == d
  {
    if |d| > 0 {
      assert (d + rest)[1..] == d[1..] + rest;
      LeadingDigitsOfDigitsThen(d[1..], rest);
      assert d == [d[0]] + d[1..];
    } else {
      assert d + rest == rest;
    }
  }
}

=== FILE: end_to_end.dfy ===
/** Properties that join the components: what the client encodes the broker
    decodes, what the broker replies the client decodes, what the forwarder
    writes the broker reads back as the same handle, and what the broker
    prints the launcher parses and hands to the forwarder as the same PID. */
module EndToEnd {
  import opened Wrappers
  import opened Bytes
  import opened Decimal
  import opened BridgeProtocol
  import opened BridgeBootstrap
  import opened HandleForwarder
  import opened MemoryOverlay
  import opened Launcher

  /** The client's `ReadFile(handle, 4096)`. */
  const ClientReadSize: nat := 4096

  /** One broker reply arriving at the client, assuming it is picked up by
      a single pipe read: a byte-mode read returns at most 4096 bytes. */
  function Deliver(reply: seq<byte>): (t: Transport)
    ensures t.Delivered? && t.err == 0
    ensures t.data <= reply
    ensures |t.data| == if |reply| < ClientReadSize then |reply| else ClientReadSize
  {
    Delivered(0, if |reply| <= ClientReadSize then reply else reply[..ClientReadSize])
  }

  /** The broker decodes the client's READ request to the same address and size. */
  lemma ReadRequestRoundTrip(address: u64, size: u32)
    ensures DecodeReadRequest(ReadRequestBytes(address, size)) == Some(ReadRequest(address, size))
  {
  }

  /** A READ request from the client is served by the broker's READ path. */
  lemma ReadRequestServed(address: u64, size: u32, env: Env)
    ensures HandleChunk(ReadRequestBytes(address, size), env) == ReadStep(ReadRequest(address, size), env)
  {
    ReadRequestRoundTrip(address, size);
  }

  /** What the client's transfer sees of the broker's step for a whole
      READ frame: the reply, or, when the broker ended, a `ReadFile` that
      raises on the broken pipe. */
  function Answer(step: Step): (t: Transport)
    requires step.Reply? || step.Crash?
    ensures step.Reply? ==> t == Deliver(step.bytes)
    ensures !step.Reply? ==> t == ReadFailed
  {
    if step.Reply? then Deliver(step.bytes) else ReadFailed
  }

  /** `initialize()` against the broker yields the module base the broker looked up. */
  lemma InitRoundTrip(env: Env)
    ensures HandleChunk(InitRequest, env).Reply?
    ensures Initialize(true, Deliver(HandleChunk(InitRequest, env).bytes))
      == Call(InitRequest, true, Ok(ModuleBaseAddress(env.target)))
  {
    var reply := HandleChunk(InitRequest, env).bytes;
    LE64OfDecode(reply);
  }

  /** A session of one INIT then one successful READ writes the module
      base's eight bytes, then status 0, then the read buffer. */
  lemma InitThenReadSession(address: u64, size: u32, e1: Env, e2: Env)
    requires size < DwordLimit - 1
    requires Allocates(ReadRequest(address, size), e2) && ReadSucceeded(size, e2.read)
    ensures ServeSession([InitRequest, ReadRequestBytes(address, size)], [e1, e2])
      == Served(LE64(ModuleBaseAddress(e1.target)) + [0] + ReadBuffer(size, e2.read.written))
  {
    var read := ReadRequestBytes(address, size);
    var init := HandleChunk(InitRequest, e1).bytes;
    LE64OfDecode(init);
    ReadRequestServed(address, size, e2);
    SingleChunkSession(InitRequest, e1);
    SingleChunkSession(read, e2);
    SessionAppend([InitRequest], [e1], [read], [e2]);
    assert [InitRequest] + [read] == [InitRequest, read] && [e1] + [e2] == [e1, e2];
  }

  /** `read_bytes(address, size)` against the broker: the read buffer on
      success, `b''` on a failed read or when the broker ended, for every
      size that fits one client read. */
  lemma ReadBytesEndToEnd(address: u64, size: u32, env: Env)
    requires 1 + size <= ClientReadSize
    ensures ReadBytes(true, address, size, Answer(HandleChunk(ReadRequestBytes(address, size), env))).result
      == Ok(if Allocates(ReadRequest(address, size), env) && ReadSucceeded(size, env.read)
            then ReadBuffer(size, env.read.written) else [])
  {
    ReadRequestServed(address, size, env);
    var step := ReadStep(ReadRequest(address, size), env);
    if step.Reply? && ReadSucceeded(size, env.read) {
      assert step.bytes[1..] == ReadBuffer(size, env.read.written);
    }
  }

  /** A successful read of 4096 bytes or more comes back cut to 4095 bytes:
      the rest of the reply stays in the pipe, unread. */
  lemma OversizedReadIsCut(address: u64, size: u32, env: Env)
    requires ClientReadSize <= 1 + size < DwordLimit
    requires Allocates(ReadRequest(address, size), env) && ReadSucceeded(size, env.read)
    ensures ReadBytes(true, address, size, Answer(HandleChunk(ReadRequestBytes(address, size), env))).result
      == Ok(ReadBuffer(size, env.read.written)[..ClientReadSize - 1])
  {
    ReadRequestServed(address, size, env);
    var reply := ReadStep(ReadRequest(address, size), env).bytes;
    assert reply[0] == 0;
    assert reply[..ClientReadSize][1..] == reply[1..][..ClientReadSize - 1];
  }

  /** `read_int(address)` against the broker: the two's-complement value of
      the first four bytes the read produced, or `None` when it failed. */
  lemma ReadIntEndToEnd(address: u64, env: Env)
    ensures Allocates(ReadRequest(address, 4), env) && ReadSucceeded(4, env.read) ==>
      ReadInt(true, address, Answer(HandleChunk(ReadRequestBytes(address, 4), env))).result
        == Ok(Some(ToSigned32(DecodeLE(ReadBuffer(4, env.read.written)))))
    ensures !(Allocates(ReadRequest(address, 4), env) && ReadSucceeded(4, env.read)) ==>
      ReadInt(true, address, Answer(HandleChunk(ReadRequestBytes(address, 4), env))).result == Ok(None)
  {
    ReadBytesEndToEnd(address, 4, env);
    Pow256Widths();
  }

  /** The bytes the forwarder writes, read by the broker, are the handle
      value the duplication produced. */
  lemma RelayRoundTrip(env: ForwarderEnv, h: u64)
    requires TargetFound(env) && env.openTargetOk && env.openBridgeOk && env.duplicated == Some(h)
    requires ConnectRelayPipe(env.pipeAttempts).connected && env.writeOk
    ensures ForwarderMain(env).status == Exited(0)
    ensures ReceiveHandleFromForwarder(RelayServerEnv(true, true, true, ForwarderMain(env).sent)).handle == h
  {
    var sent := ForwarderMain(env).sent;
    var got := ReceiveHandleFromForwarder(RelayServerEnv(true, true, true, sent)).handle;
    assert LE64(got) == LE64(h);
  }

  /** The launcher's pattern finds the broker's announcement at its start
      and reads back the PID. */
  lemma FindPidInAnnouncement(pid: u32)
    ensures FindPid(PidAnnouncement(pid)) == Some(pid)
  {
    var line := PidAnnouncement(pid);
    var digits := line[|PidBanner|..|line| - 1];
    assert PidPattern == PidBanner;
    assert PidMatchAt(line, 0);
    assert line[|PidPattern|..] == digits + "\n";
    LeadingDigitsOfDigitsThen(digits, "\n");
  }

  /** Output lines before the announcement that do not match are skipped;
      the PID the launcher captures is the one the broker printed. */
  lemma {:induction false} LauncherCapturesBridgePid(earlier: seq<string>, pid: u32, later: seq<string>)
    requires forall i :: 0 <= i < |earlier| ==> FindPid(earlier[i]).None?
    ensures CapturePid(earlier + [PidAnnouncement(pid)] + later) == Some(pid)
  {
    var lines := earlier + [PidAnnouncement(pid)] + later;
    FindPidInAnnouncement(pid);
    assert lines[|earlier|] == PidAnnouncement(pid);
    assert forall j :: 0 <= j < |earlier| ==> lines[j] == earlier[j];
  }

  /** The forwarder parses the launcher's argument back to the same PID and,
      for a nonzero PID, gets past its argument checks. */
  lemma ForwarderReadsLauncherArgument(pid: u32)
    ensures ParseUnsignedLong(ToDecimal(pid)) == Some(pid)
    ensures pid != 0 ==> ArgsAccepted([ForwarderExe, ToDecimal(pid)])
  {
    ParseUnsignedLongOfDecimal(pid, "");
    assert ToDecimal(pid) + "" == ToDecimal(pid);
  }

  /** From the broker's stdout to the forwarder's command line: when the
      broker announces its PID, the forwarder the launcher starts targets it. */
  lemma BridgePidReachesForwarder(env: LauncherEnv, earlier: seq<string>, pid: u32, later: seq<string>)
    requires FilesPresent(env.files)
    requires env.bridgeLines == earlier + [PidAnnouncement(pid)] + later
    requires forall i :: 0 <= i < |earlier| ==> FindPid(earlier[i]).None?
    ensures LauncherMain(env).events[1].Launched?
    ensures LauncherMain(env).events[1].program == Forwarder
    ensures ParseUnsignedLong(LauncherMain(env).events[1].args[0]) == Some(pid)
  {
    LauncherCapturesBridgePid(earlier, pid, later);
    ForwarderReadsLauncherArgument(pid);
  }

  /** Base 0x140000000 travels as these eight bytes, and a 4-byte READ at
      0x140000010 as these thirteen. */
  lemma WorkedExample()
    ensures LE64(0x1_4000_0000) == [0x00, 0x00, 0x00, 0x40, 0x01, 0x00, 0x00, 0x00]
    ensures ReadRequestBytes(0x1_4000_0010, 4)
      == [0x02, 0x10, 0x00, 0x00, 0x40, 0x01, 0x00, 0x00, 0x00, 0x04, 0x00, 0x00, 0x00]
  {
    DecodeExampleBytes();
    InitExampleLayout();
    ReadAddressLayout();
    SizeFourLayout();
    ReadExampleLayout();
  }

  lemma InitExampleLayout()
    requires DecodeLE([0x00, 0x00, 0x00, 0x40, 0x01, 0x00, 0x00, 0x00]) == 0x1_4000_0000
    ensures LE64(0x1_4000_0000) == [0x00, 0x00, 0x00, 0x40, 0x01, 0x00, 0x00, 0x00]
  {
    LE64OfDecode([0x00, 0x00, 0x00, 0x40, 0x01, 0x00, 0x00, 0x00]);
  }

  lemma ReadAddressLayout()
    requires DecodeLE([0x10, 0x00, 0x00, 0x40, 0x01, 0x00, 0x00, 0x00]) == 0x1_4000_0010
    ensures LE64(0x1_4000_0010) == [0x10, 0x00, 0x00, 0x40, 0x01, 0x00, 0x00, 0x00]
  {
    LE64OfDecode([0x10, 0x00, 0x00, 0x40, 0x01, 0x00, 0x00, 0x00]);
  }

  lemma SizeFourLayout()
    requires DecodeLE([0x04, 0x00, 0x00, 0x00]) == 4
    ensures LE32(4) == [0x04, 0x00, 0x00, 0x00]
  {
    Pow256Widths();
    EncodeDecodeLE([0x04, 0x00, 0x00, 0x00]);
  }

  lemma ReadExampleLayout()
    requires LE64(0x1_4000_0010) == [0x10, 0x00, 0x00, 0x40, 0x01, 0x00, 0x00, 0x00]
    requires LE32(4) == [0x04, 0x00, 0x00, 0x00]
    ensures ReadRequestBytes(0x1_4000_0010, 4)
      == [0x02, 0x10, 0x00, 0x00, 0x40, 0x01, 0x00, 0x00, 0x00, 0x04, 0x00, 0x00, 0x00]
  {
    var addr := LE64(0x1_4000_0010);
    var four := LE32(4);
    assert ReadRequestBytes(0x1_4000_0010, 4) == [0x02] + addr + four;
    ExampleRequestBytes(addr, four);
  }

  /** The thirteen bytes once the two fields are known. */
  lemma ExampleRequestBytes(addr: seq<byte>, four: seq<byte>)
    requires addr == [0x10, 0x00, 0x00, 0x40, 0x01, 0x00, 0x00, 0x00]
    requires four == [0x04, 0x00, 0x00, 0x00]
    ensures [0x02] + addr + four
      == [0x02, 0x10, 0x00, 0x00, 0x40, 0x01, 0x00, 0x00, 0x00, 0x04, 0x00, 0x00, 0x00]
  {
  }

  /** A READ request is its opcode followed by whichever eight and four
      bytes hold the address and the size. */
  lemma ReadRequestLayout(address: u64, size: u32, a: seq<byte>, s: seq<byte>)
    requires |a| == 8 && DecodeLE(a) == address
    requires |s| == 4 && DecodeLE(s) == size
    ensures ReadRequestBytes(address, size) == [0x02] + a + s
  {
    var r := ReadRequestBytes(address, size);
    DecodeLEInjective(r[1..9], a);
    DecodeLEInjective(r[9..13], s);
    assert r == r[..1] + r[1..9] + r[9..13];
  }

  /** The upper seven bytes shared by the base and the read address. */
  lemma HighBytesValue()
    ensures DecodeLE([0x00, 0x00, 0x40, 0x01, 0x00, 0x00, 0x00]) == 0x140_0000
  {
    var zeros: seq<byte> := [0x00, 0x00, 0x00];
    assert DecodeLE(zeros) == 0;
    var high: seq<byte> := [0x01] + zeros;
    assert DecodeLE(high) == 1;
    var mid: seq<byte> := [0x40] + high;
    assert DecodeLE(mid) == 0x140;
    var m1: seq<byte> := [0x00] + mid;
    assert m1[1..] == mid;
    assert DecodeLE(m1) == 0x1_4000;
    var m2: seq<byte> := [0x00] + m1;
    assert m2[1..] == m1;
    assert m2 == [0x00, 0x00, 0x40, 0x01, 0x00, 0x00, 0x00];
  }

  lemma DecodeExampleBytes()
    ensures DecodeLE([0x00, 0x00, 0x00, 0x40, 0x01, 0x00, 0x00, 0x00]) == 0x1_4000_0000
    ensures DecodeLE([0x10, 0x00, 0x00, 0x40, 0x01, 0x00, 0x00, 0x00]) == 0x1_4000_0010
    ensures DecodeLE([0x04, 0x00, 0x00, 0x00]) == 4
  {
    HighBytesValue();
    var m2: seq<byte> := [0x00, 0x00, 0x40, 0x01, 0x00, 0x00, 0x00];
    var base: seq<byte> := [0x00] + m2;
    assert base[1..] == m2;
    assert base == [0x00, 0x00, 0x00, 0x40, 0x01, 0x00, 0x00, 0x00];
    var addr: seq<byte> := [0x10] + m2;
    assert addr[1..] == m2;
    assert addr == [0x10, 0x00, 0x00, 0x40, 0x01, 0x00, 0x00, 0x00];
    var zeros: seq<byte> := [0x00, 0x00, 0x00];
    assert DecodeLE(zeros) == 0;
    var four: seq<byte> := [0x04] + zeros;
    assert four[1..] == zeros;
    assert four == [0x04, 0x00, 0x00, 0x00];
  }
}

=== FILE: handle_forwarder.dfy ===
/** The capability forwarder (HandleForwarder.cpp): find the target by
    executable name, open it, open the broker, duplicate the target handle
    into the broker, and write the duplicated value to the relay pipe. Every
    OS call is an oracle result in `ForwarderEnv`; the two polling loops see
    a finite list of observations, and a run that exhausts them is reported
    as still waiting rather than given an invented ending. */
module HandleForwarder {
  import opened Wrappers
  import opened Bytes
  import opened Decimal
  import opened Search

  /** The executable name of the process whose memory is relayed. */
  const TargetProcName: string := "example_app.exe"

  /** `ERROR_PIPE_BUSY`: the one pipe-open failure that is not logged. */
  const ErrorPipeBusy: u32 := 231

  /** One `PROCESSENTRY32`: executable name and process id. */
  datatype ProcessEntry = ProcessEntry(exeName: string, pid: u32)

  /** `i` is the first entry whose executable name is exactly `name`. */
  predicate FirstNamedAt(ps: seq<ProcessEntry>, name: string, i: int) {
    0 <= i < |ps| && ps[i].exeName == name && forall j :: 0 <= j < i ==> ps[j].exeName != name
  }

  /** `FindProcessId(name)` over one process snapshot (None when
      `CreateToolhelp32Snapshot` fails). The comparison is case-sensitive. */
  function FindProcessId(snapshot: Option<seq<ProcessEntry>>, name: string): (pid: u32)
    ensures snapshot.None? ==> pid == 0
    ensures snapshot.Some? ==> forall i :: FirstNamedAt(snapshot.value, name, i) ==> pid == snapshot.value[i].pid
    ensures snapshot.Some? && (forall i :: 0 <= i < |snapshot.value| ==> snapshot.value[i].exeName != name) ==> pid == 0
  {
    match snapshot
    case None => 0
    case Some(ps) =>
      match FirstMatch(ps, (e: ProcessEntry) => e.exeName == name)
      case None => 0
      case Some(i) => ps[i].pid
  }

  /** `std::stoul(arg)` for an argument that starts with its digits: the
      value of the leading digit run; None where `stoul` throws, because
      there is no digit (`invalid_argument`) or the value exceeds the 32-bit
      `unsigned long` of Windows (`out_of_range`). */
  function ParseUnsignedLong(arg: string): (r: Option<u32>)
    ensures r.Some? <==> |LeadingDigits(arg)| > 0 && ValueOf(LeadingDigits(arg)) < 0x1_0000_0000
    ensures r.Some? ==> r.value == ValueOf(LeadingDigits(arg))
    ensures r.Some? ==> exists k :: 0 <= k < |LeadingDigits(arg)| && LeadingDigits(arg) == ZeroDigits(k) + ToDecimal(r.value)
  {
    var digits := LeadingDigits(arg);
    if |digits| == 0 then None
    else
      var n := ValueOf(digits);
      if n < 0x1_0000_0000 then
        CanonicalDecimal(digits);
        ZerosThenDecimal(digits);
        Some(n)
      else None
  }

  /** A digit string without a leading zero is the decimal spelling of its value. */
  lemma {:induction false} CanonicalDecimal(d: string)
    requires |d| > 0 && AllDigits(d)
    ensures d[0] != '0' ==> ToDecimal(ValueOf(d)) == d
  {
    if d[0] != '0' && |d| > 1 {
      var init := d[..|d| - 1];
      CanonicalDecimal(init);
      var n := ValueOf(d);
      assert n / 10 == ValueOf(init) && n % 10 == DigitValue(d[|d| - 1]);
      assert ValueOf(init) > 0 by {
        PositiveValue(init);
      }
      assert d == init + [d[|d| - 1]];
    }
  }

  /** Every digit string is some leading zeros followed by the decimal
      spelling of its value: `stoul("007")` is 7 and `stoul("00")` is 0. */
  lemma {:induction false} ZerosThenDecimal(d: string)
    requires |d| > 0 && AllDigits(d)
    ensures exists k :: 0 <= k < |d| && d == ZeroDigits(k) + ToDecimal(ValueOf(d))
  {
    if d[0] != '0' {
      CanonicalDecimal(d);
      assert d == ZeroDigits(0) + ToDecimal(ValueOf(d));
    } else if |d| == 1 {
      assert d == ZeroDigits(0) + ToDecimal(ValueOf(d));
    } else {
      var t := d[1..];
      ZerosThenDecimal(t);
      var k :| 0 <= k < |t| && t == ZeroDigits(k) + ToDecimal(ValueOf(t));
      var spelled := ToDecimal(ValueOf(t));
      assert d == ['0'] + t;
      ValueOfLeadingZero(t);
      assert ValueOf(d) == ValueOf(t);
      assert ZeroDigits(k + 1) == ['0'] + ZeroDigits(k);
      assert ['0'] + (ZeroDigits(k) + spelled) == ZeroDigits(k + 1) + spelled;
    }
  }

  lemma {:induction false} PositiveValue(d: string)
    requires |d| > 0 && AllDigits(d) && d[0] != '0'
    ensures ValueOf(d) > 0
  {
    if |d| > 1 {
      assert d[..|d| - 1][0] == d[0];
      PositiveValue(d[..|d| - 1]);
    }
  }

  /** `stoul` reads back the decimal spelling of any 32-bit value, whatever
      non-digit text follows it. */
  lemma ParseUnsignedLongOfDecimal(n: u32, rest: string)
    requires |rest| == 0 || !IsDigit(rest[0])
    ensures ParseUnsignedLong(ToDecimal(n) + rest) == Some(n)
  {
    LeadingDigitsOfDigitsThen(ToDecimal(n), rest);
    ValueOfToDecimal(n);
  }

  /** Leading zeros are read past: "007" is PID 7, and "00" is PID 0, which
      takes the invalid-PID exit. */
  lemma LeadingZerosParsed()
    ensures ParseUnsignedLong("007") == Some(7)
    ensures ParseUnsignedLong("00") == Some(0)
  {
    LeadingDigitsOfDigitsThen("007", "");
    LeadingDigitsOfDigitsThen("00", "");
    assert "007" + "" == "007" && "00" + "" == "00";
    assert "007"[..2] == "00" && "00"[..1] == "0";
    assert ValueOf("007") == 10 * ValueOf("00") + 7;
  }

  /** One `CreateFileA` attempt on the relay pipe. */
  datatype PipeAttempt = PipeOpened | PipeFailed(error: u32)

  /** The errors the pipe-open loop logs: every failure except "busy". */
  function LoggedErrors(attempts: seq<PipeAttempt>): seq<u32> {
    if |attempts| == 0 then []
    else
      var head := if attempts[0].PipeFailed? && attempts[0].error != ErrorPipeBusy then [attempts[0].error] else [];
      head + LoggedErrors(attempts[1..])
  }

  /** No busy failure is ever logged. */
  lemma {:induction false} LoggedErrorsNeverBusy(attempts: seq<PipeAttempt>)
    ensures forall i :: 0 <= i < |LoggedErrors(attempts)| ==> LoggedErrors(attempts)[i] != ErrorPipeBusy
  {
    if |attempts| > 0 {
      LoggedErrorsNeverBusy(attempts[1..]);
    }
  }

  /** The pipe-open loop: whether it got the pipe, how many attempts it
      made, and the errors it logged. */
  datatype PipeLoop = PipeLoop(connected: bool, attempts: nat, logged: seq<u32>)

  /** The `while (hPipe == INVALID_HANDLE_VALUE)` loop over the attempts
      observed: it retries after every failure and stops at the first open. */
  function ConnectRelayPipe(attempts: seq<PipeAttempt>): (r: PipeLoop)
    ensures r.attempts <= |attempts|
    ensures r.connected <==> exists i :: 0 <= i < |attempts| && attempts[i].PipeOpened?
    ensures r.connected ==> 0 < r.attempts && attempts[r.attempts - 1].PipeOpened?
    ensures r.connected ==> forall j :: 0 <= j < r.attempts - 1 ==> attempts[j].PipeFailed?
    ensures !r.connected ==> r.attempts == |attempts|
    ensures r.logged == LoggedErrors(attempts[..r.attempts])
  {
    if |attempts| == 0 then PipeLoop(false, 0, [])
    else match attempts[0]
      case PipeOpened =>
        assert attempts[..1][1..] == [];
        PipeLoop(true, 1, [])
      case PipeFailed(e) =>
        var rest := ConnectRelayPipe(attempts[1..]);
        assert attempts[..rest.attempts + 1][1..] == attempts[1..][..rest.attempts];
        PipeLoop(rest.connected, rest.attempts + 1, (if e != ErrorPipeBusy then [e] else []) + rest.logged)
  }

  /** The forwarder's local handles, and the duplicated one, which is only
      meaningful inside the broker. */
  datatype Handle = TargetHandle | BridgeHandle | RelayPipe | RelayedHandle

  /** Oracle results for one run: the command line, what each round of the
      target polling loop saw, whether the two `OpenProcess` calls
      succeeded, the value `DuplicateHandle` produced (None on failure),
      the pipe-open attempts, and whether the final `WriteFile` succeeded. */
  datatype ForwarderEnv = ForwarderEnv(
    argv: seq<string>,
    snapshots: seq<Option<seq<ProcessEntry>>>,
    openTargetOk: bool,
    openBridgeOk: bool,
    duplicated: Option<u64>,
    pipeAttempts: seq<PipeAttempt>,
    writeOk: bool)

  /** How the run ends: an exit code, an uncaught `stoul` exception, or
      still inside one of the two polling loops when the observations end. */
  datatype Status = Exited(code: int) | Aborted | PollingTarget | ConnectingPipe

  /** A run: its status, the number of process lookups, the bridge PID it
      parsed, the target PID it found, the handles it opened and closed,
      the pipe errors it logged and the bytes it delivered to the broker. */
  datatype ForwarderRun = ForwarderRun(
    status: Status,
    lookups: nat,
    bridgePid: u32,
    targetPid: u32,
    acquired: set<Handle>,
    released: set<Handle>,
    logged: seq<u32>,
    sent: seq<byte>)

  /** The argument checks pass: a PID argument that parses to nonzero. */
  predicate ArgsAccepted(argv: seq<string>) {
    |argv| >= 2 && ParseUnsignedLong(argv[1]).Some? && ParseUnsignedLong(argv[1]).value != 0
  }

  /** One poll's snapshot shows the target. */
  predicate ShowsTarget(snapshot: Option<seq<ProcessEntry>>) {
    FindProcessId(snapshot, TargetProcName) != 0
  }

  /** Some poll sees the target. */
  predicate TargetSeen(snapshots: seq<Option<seq<ProcessEntry>>>) {
    exists i :: 0 <= i < |snapshots| && ShowsTarget(snapshots[i])
  }

  /** The run gets past the argument checks and some poll sees the target. */
  predicate TargetFound(env: ForwarderEnv) {
    ArgsAccepted(env.argv) && TargetSeen(env.snapshots)
  }

  /** The part of `main` after the target is found: open the target, open
      the broker, duplicate, open the relay pipe, write, clean up. */
  function OpenAndRelay(env: ForwarderEnv, lookups: nat, bridgePid: u32, targetPid: u32): (run: ForwarderRun)
    ensures run.lookups == lookups && run.bridgePid == bridgePid && run.targetPid == targetPid
    ensures run.status.Exited? ==> run.released == run.acquired
    ensures RelayedHandle !in run.acquired && RelayedHandle !in run.released
    ensures run.status.Exited? ==> run.status.code == 0 || run.status.code == 1
    ensures run.status.Exited? || run.status == ConnectingPipe
    ensures run.acquired != {} <==> env.openTargetOk
    ensures run.acquired != {} ==> TargetHandle in run.acquired
    ensures !env.openTargetOk ==> run.status == Exited(1)
    ensures env.openTargetOk && !env.openBridgeOk ==> run.status == Exited(1) && run.acquired == {TargetHandle}
    ensures env.openTargetOk && env.openBridgeOk && env.duplicated.None? ==>
      run.status == Exited(1) && run.acquired == {TargetHandle, BridgeHandle}
    ensures env.openTargetOk && env.openBridgeOk && env.duplicated.Some? && !ConnectRelayPipe(env.pipeAttempts).connected ==>
      run.status == ConnectingPipe && run.acquired == {TargetHandle, BridgeHandle} && run.released == {}
    ensures run.status == Exited(0) <==> (env.openTargetOk && env.openBridgeOk && env.duplicated.Some?
      && ConnectRelayPipe(env.pipeAttempts).connected)
    ensures run.status == Exited(0) ==> run.acquired == {TargetHandle, BridgeHandle, RelayPipe}
    ensures RelayPipe in run.acquired ==> run.logged == ConnectRelayPipe(env.pipeAttempts).logged
    ensures |run.sent| > 0 <==> run.status == Exited(0) && env.writeOk
    ensures |run.sent| > 0 ==> env.duplicated.Some? && run.sent == LE64(env.duplicated.value)
  {
    if !env.openTargetOk then
      ForwarderRun(Exited(1), lookups, bridgePid, targetPid, {}, {}, [], [])
    else if !env.openBridgeOk then
      ForwarderRun(Exited(1), lookups, bridgePid, targetPid, {TargetHandle}, {TargetHandle}, [], [])
    else match env.duplicated
      case None =>
        var held := {TargetHandle, BridgeHandle};
        ForwarderRun(Exited(1), lookups, bridgePid, targetPid, held, held, [], [])
      case Some(h) =>
        var pipe := ConnectRelayPipe(env.pipeAttempts);
        if !pipe.connected then
          ForwarderRun(ConnectingPipe, lookups, bridgePid, targetPid, {TargetHandle, BridgeHandle}, {}, pipe.logged, [])
        else
          var held := {TargetHandle, BridgeHandle, RelayPipe};
          ForwarderRun(Exited(0), lookups, bridgePid, targetPid, held, held, pipe.logged, if env.writeOk then LE64(h) else [])
  }

  /** `main` after the argument checks: poll for the target, then relay. */
  function PollAndRelay(env: ForwarderEnv, bridgePid: u32): (run: ForwarderRun)
    ensures run.bridgePid == bridgePid
    ensures run.status.Exited? ==> run.released == run.acquired
    ensures RelayedHandle !in run.acquired && RelayedHandle !in run.released
    ensures !TargetSeen(env.snapshots) ==>
      run.status == PollingTarget && run.acquired == {} && run.sent == [] && run.lookups == |env.snapshots|
    ensures TargetSeen(env.snapshots) ==> (0 < run.lookups <= |env.snapshots|
      && run.targetPid == FindProcessId(env.snapshots[run.lookups - 1], TargetProcName) != 0
      && (forall j :: 0 <= j < run.lookups - 1 ==> FindProcessId(env.snapshots[j], TargetProcName) == 0)
      && run == OpenAndRelay(env, run.lookups, bridgePid, run.targetPid))
  {
    match FirstMatch(env.snapshots, ShowsTarget)
    case None => ForwarderRun(PollingTarget, |env.snapshots|, bridgePid, 0, {}, {}, [], [])
    case Some(i) =>
      var run := OpenAndRelay(env, i + 1, bridgePid, FindProcessId(env.snapshots[i], TargetProcName));
      assert run.lookups == i + 1 && run.targetPid == FindProcessId(env.snapshots[i], TargetProcName);
      run
  }

  /** `main` of the forwarder. */
  function ForwarderMain(env: ForwarderEnv): (run: ForwarderRun)
    ensures run.status.Exited? ==> run.released == run.acquired
    ensures RelayedHandle !in run.acquired && RelayedHandle !in run.released
    ensures |env.argv| < 2 ==> run.status == Exited(1) && run.lookups == 0
    ensures |env.argv| >= 2 && ParseUnsignedLong(env.argv[1]) == Some(0) ==> run.status == Exited(1) && run.lookups == 0
    ensures run.lookups > 0 ==> ArgsAccepted(env.argv) && ParseUnsignedLong(env.argv[1]) == Some(run.bridgePid)
    ensures ArgsAccepted(env.argv) && !TargetFound(env) ==> run.status == PollingTarget && run.acquired == {}
    ensures TargetFound(env) ==> (0 < run.lookups <= |env.snapshots|
      && run.targetPid == FindProcessId(env.snapshots[run.lookups - 1], TargetProcName) != 0
      && (forall j :: 0 <= j < run.lookups - 1 ==> FindProcessId(env.snapshots[j], TargetProcName) == 0)
      && run == OpenAndRelay(env, run.lookups, run.bridgePid, run.targetPid))
    ensures !TargetFound(env) ==> run.acquired == {} && run.sent == [] && run.status != Exited(0)
  {
    if |env.argv| < 2 then ForwarderRun(Exited(1), 0, 0, 0, {}, {}, [], [])
    else match ParseUnsignedLong(env.argv[1])
      case None => ForwarderRun(Aborted, 0, 0, 0, {}, {}, [], [])
      case Some(bridgePid) =>
        assert ArgsAccepted(env.argv) <==> bridgePid != 0;
        if bridgePid == 0 then ForwarderRun(Exited(1), 0, 0, 0, {}, {}, [], [])
        else PollAndRelay(env, bridgePid)
  }
}

=== FILE: launcher.dfy ===
/** The launcher (launcher.py `main`): check the three files, start the
    broker and scrape its PID from its output, run the forwarder with that
    PID, then run the client and terminate the broker. The run is recorded
    as the sequence of process starts and terminations it performs. */
module Launcher {
  import opened Wrappers
  import opened Decimal
  import opened Search

  const BridgeExe: string := "MemoryBridge.exe"
  const ForwarderExe: string := "HandleForwarder.exe"
  const ClientScript: string := "memory_overlay.py"

  /** The literal part of the pattern `Memory Bridge PID: (\d+)`. */
  const PidPattern: string := "Memory Bridge PID: "

  /** The pattern matches at `i`: the literal, then at least one digit. */
  predicate PidMatchAt(line: string, i: int) {
    0 <= i && i + |PidPattern| < |line|
    && line[i..i + |PidPattern|] == PidPattern && IsDigit(line[i + |PidPattern|])
  }

  /** `int(match.group(1))` for a match at `i`: greedy `\d+` takes the whole digit run. */
  function PidAt(line: string, i: int): nat
    requires PidMatchAt(line, i)
  {
    ValueOf(LeadingDigits(line[i + |PidPattern|..]))
  }

  /** Where the leftmost match at or after `from` starts, as `re.search`
      scans for it. */
  function SearchFrom(line: string, from: nat): (r: Option<nat>)
    requires from <= |line|
    ensures r.None? <==> forall i :: from <= i < |line| ==> !PidMatchAt(line, i)
    ensures r.Some? ==> from <= r.value < |line| && PidMatchAt(line, r.value)
    ensures r.Some? ==> forall j :: from <= j < r.value ==> !PidMatchAt(line, j)
    decreases |line| - from
  {
    if from == |line| then None
    else if PidMatchAt(line, from) then Some(from)
    else SearchFrom(line, from + 1)
  }

  /** `re.search(r"Memory Bridge PID: (\d+)", line)` and the captured number. */
  function FindPid(line: string): (r: Option<nat>)
    ensures r.None? <==> forall i :: 0 <= i < |line| ==> !PidMatchAt(line, i)
    ensures r.Some? ==> SearchFrom(line, 0).Some? && r.value == PidAt(line, SearchFrom(line, 0).value)
  {
    match SearchFrom(line, 0)
    case None => None
    case Some(i) => Some(PidAt(line, i))
  }

  /** The PID loop: the number from the first output line that matches;
      earlier lines are skipped, later ones never read. */
  function CapturePid(lines: seq<string>): (r: Option<nat>)
    ensures r.None? <==> forall i :: 0 <= i < |lines| ==> FindPid(lines[i]).None?
    ensures r.Some? ==> exists i :: (0 <= i < |lines| && FindPid(lines[i]) == r
      && forall j :: 0 <= j < i ==> FindPid(lines[j]).None?)
  {
    match FirstMatch(lines, (l: string) => FindPid(l).Some?)
    case None => None
    case Some(i) => FindPid(lines[i])
  }

  datatype Program = Bridge | Forwarder | Client

  /** A process start with its arguments (after the program name), or a
      `terminate()` of a started process. */
  datatype Event = Launched(program: Program, args: seq<string>) | Terminated(program: Program)

  /** `forwarder_process.wait(timeout=30)`: it exited with a code, or the
      wait raised `TimeoutExpired`. */
  datatype ForwarderWait = Finished(code: int) | TimedOut

  /** Oracle results for one run: the files that exist, the broker's output
      lines up to end of file, and how the forwarder ended. */
  datatype LauncherEnv = LauncherEnv(files: set<string>, bridgeLines: seq<string>, forwarder: ForwarderWait)

  /** The processes started and terminated, and whether `main` ended in an
      uncaught exception. */
  datatype LauncherRun = LauncherRun(events: seq<Event>, crashed: bool)

  predicate FilesPresent(files: set<string>) {
    BridgeExe in files && ForwarderExe in files && ClientScript in files
  }

  predicate LaunchesClient(events: seq<Event>) {
    Launched(Client, [ClientScript]) in events
  }

  /** Steps 3 to 5 of `main`, once the broker's PID is known: run the
      forwarder on it, then the client, terminating the broker on the way out. */
  function RelayAndRun(pid: nat, forwarder: ForwarderWait): (run: LauncherRun)
    ensures |run.events| >= 1 && run.events[0] == Launched(Forwarder, [ToDecimal(pid)])
    ensures run.crashed <==> forwarder.TimedOut?
    ensures run.crashed ==> |run.events| == 1
    ensures forwarder.Finished? && forwarder.code != 0 ==> run.events == [Launched(Forwarder, [ToDecimal(pid)]), Terminated(Bridge)]
    ensures LaunchesClient(run.events) <==> forwarder == Finished(0)
    ensures LaunchesClient(run.events) ==> run.events[1] == Launched(Client, [ClientScript]) && |run.events| == 3
    ensures !run.crashed ==> run.events[|run.events| - 1] == Terminated(Bridge)
    ensures run.crashed ==> forall i :: 0 <= i < |run.events| ==> !run.events[i].Terminated?
  {
    var forward := [Launched(Forwarder, [ToDecimal(pid)])];
    match forwarder
    case TimedOut => LauncherRun(forward, true)
    case Finished(code) =>
      if code != 0 then LauncherRun(forward + [Terminated(Bridge)], false)
      else LauncherRun(forward + [Launched(Client, [ClientScript]), Terminated(Bridge)], false)
  }

  /** The whole event list once the PID is known, for each way the
      forwarder ends. */
  lemma BridgeThenRelay(pid: nat, forwarder: ForwarderWait)
    ensures forwarder.TimedOut? ==>
      [Launched(Bridge, [])] + RelayAndRun(pid, forwarder).events
        == [Launched(Bridge, []), Launched(Forwarder, [ToDecimal(pid)])]
    ensures forwarder == Finished(0) ==>
      [Launched(Bridge, [])] + RelayAndRun(pid, forwarder).events
        == [Launched(Bridge, []), Launched(Forwarder, [ToDecimal(pid)]), Launched(Client, [ClientScript]), Terminated(Bridge)]
    ensures forwarder.Finished? && forwarder.code != 0 ==>
      [Launched(Bridge, [])] + RelayAndRun(pid, forwarder).events
        == [Launched(Bridge, []), Launched(Forwarder, [ToDecimal(pid)]), Terminated(Bridge)]
  {
  }

  /** `main()` once the broker's output has been scanned: `captured` is the
      PID found, if any. */
  function Launch(files: set<string>, captured: Option<nat>, forwarder: ForwarderWait): (run: LauncherRun)
    ensures !FilesPresent(files) ==> run.events == [] && !run.crashed
    ensures FilesPresent(files) ==> |run.events| >= 2 && run.events[0] == Launched(Bridge, [])
    ensures FilesPresent(files) && captured.None? ==>
      run.events == [Launched(Bridge, []), Terminated(Bridge)] && !run.crashed
    ensures FilesPresent(files) && captured.Some? ==>
      run.events[1] == Launched(Forwarder, [ToDecimal(captured.value)])
    ensures FilesPresent(files) && captured.Some? && forwarder.Finished? && forwarder.code != 0 ==>
      run.events == [Launched(Bridge, []), Launched(Forwarder, [ToDecimal(captured.value)]), Terminated(Bridge)]
    ensures LaunchesClient(run.events) <==> FilesPresent(files) && captured.Some? && forwarder == Finished(0)
    ensures LaunchesClient(run.events) ==> (|run.events| == 4
      && run.events[2] == Launched(Client, [ClientScript]) && run.events[3] == Terminated(Bridge))
    ensures run.crashed <==> FilesPresent(files) && captured.Some? && forwarder.TimedOut?
    ensures !run.crashed && run.events != [] ==> run.events[|run.events| - 1] == Terminated(Bridge)
    ensures run.crashed ==> |run.events| == 2 && forall i :: 0 <= i < |run.events| ==> !run.events[i].Terminated?
  {
    if !FilesPresent(files) then LauncherRun([], false)
    else
      var bridge := [Launched(Bridge, [])];
      match captured
      case None => LauncherRun(bridge + [Terminated(Bridge)], false)
      case Some(pid) =>
        var rest := RelayAndRun(pid, forwarder);
        BridgeThenRelay(pid, forwarder);
        LauncherRun(bridge + rest.events, rest.crashed)
  }

  /** `main()` of the launcher. */
  function LauncherMain(env: LauncherEnv): (run: LauncherRun)
    ensures !FilesPresent(env.files) ==> run.events == [] && !run.crashed
    ensures FilesPresent(env.files) ==> |run.events| >= 2 && run.events[0] == Launched(Bridge, [])
    ensures FilesPresent(env.files) && CapturePid(env.bridgeLines).None? ==>
      run.events == [Launched(Bridge, []), Terminated(Bridge)] && !run.crashed
    ensures FilesPresent(env.files) && CapturePid(env.bridgeLines).Some? ==>
      run.events[1] == Launched(Forwarder, [ToDecimal(CapturePid(env.bridgeLines).value)])
    ensures FilesPresent(env.files) && CapturePid(env.bridgeLines).Some? && env.forwarder.Finished? && env.forwarder.code != 0 ==>
      run.events == [Launched(Bridge, []), Launched(Forwarder, [ToDecimal(CapturePid(env.bridgeLines).value)]), Terminated(Bridge)]
    ensures LaunchesClient(run.events) <==>
      FilesPresent(env.files) && CapturePid(env.bridgeLines).Some? && env.forwarder == Finished(0)
    ensures LaunchesClient(run.events) ==> (|run.events| == 4
      && run.events[2] == Launched(Client, [ClientScript]) && run.events[3] == Terminated(Bridge))
    ensures run.crashed <==> FilesPresent(env.files) && CapturePid(env.bridgeLines).Some? && env.forwarder.TimedOut?
    ensures !run.crashed && run.events != [] ==> run.events[|run.events| - 1] == Terminated(Bridge)
    ensures run.crashed ==> |run.events| == 2 && forall i :: 0 <= i < |run.events| ==> !run.events[i].Terminated?
  {
    Launch(env.files, CapturePid(env.bridgeLines), env.forwarder)
  }
}

=== FILE: memory_overlay.dfy ===
/** The client side of the protocol (memory_overlay.py `MemoryInterface`):
    request encoding with `struct.pack` and response decoding with
    `struct.unpack`, native order being little-endian on the targets. The
    pipe transfer itself is an oracle: it either raises or hands back the
    `(err, data)` pair of `win32file.ReadFile`. */
module MemoryOverlay {
  import opened Wrappers
  import opened Bytes

  /** The exceptions the client's calls can end in. `StructError` is
      `struct.error`, raised by `struct.pack` for an out-of-range field. */
  datatype ClientError = ConnectionError | IOError | RuntimeError | StructError

  /** One write-then-read on the pipe: `WriteFile` raised (nothing of the
      request is taken to have reached the pipe), `ReadFile` raised after the
      request was written, or the read returned `(err, data)`. */
  datatype Transport = WriteFailed | ReadFailed | Delivered(err: int, data: seq<byte>)

  /** What one call did: the bytes it wrote to the pipe, whether the client
      still holds a pipe handle afterwards, and its result. */
  datatype Call<T> = Call(written: seq<byte>, connected: bool, result: Result<T, ClientError>)

  /** `struct.pack('B', 0x01)`: the whole INIT request. */
  const InitRequest: seq<byte> := [0x01]

  /** `struct.pack('B', 0x02) + struct.pack('QI', address, size)`: native
      size and alignment put the `I` right after the `Q`, no padding. */
  function ReadRequestBytes(address: u64, size: u32): (r: seq<byte>)
    ensures |r| == 13 && r[0] == 0x02
    ensures DecodeLE(r[1..9]) == address && DecodeLE(r[9..13]) == size
  {
    var r := [0x02] + LE64(address) + LE32(size);
    assert r[1..9] == LE64(address) && r[9..13] == LE32(size);
    r
  }

  /** `_send_request(command, data)`. A missing handle raises before
      anything is written; a failing transfer closes the pipe and raises
      `IOError`. */
  function SendRequest(connected: bool, request: seq<byte>, t: Transport): (c: Call<(int, seq<byte>)>)
    ensures !connected ==> c == Call([], false, Err(ConnectionError))
    ensures connected && !t.WriteFailed? ==> c.written == request
    ensures t.WriteFailed? ==> c.written == []
    ensures connected && !t.Delivered? ==> c.result == Err(IOError)
    ensures connected ==> (c.result.Err? <==> !t.Delivered?)
    ensures c.result.Err? ==> !c.connected
    ensures c.result.Ok? ==> c.connected && t == Delivered(c.result.value.0, c.result.value.1)
  {
    if !connected then Call([], false, Err(ConnectionError))
    else match t
      case WriteFailed => Call([], false, Err(IOError))
      case ReadFailed => Call(request, false, Err(IOError))
      case Delivered(err, data) => Call(request, true, Ok((err, data)))
  }

  /** `initialize()`: the module base, which only an `err == 0`, exactly
      8-byte response gives; exceptions of the transfer propagate. */
  function Initialize(connected: bool, t: Transport): (c: Call<u64>)
    ensures connected && !t.WriteFailed? ==> c.written == InitRequest
    ensures c.result.Ok? <==> connected && t.Delivered? && t.err == 0 && |t.data| == 8
    ensures c.result.Ok? ==> LE64(c.result.value) == t.data
    ensures !connected ==> c.result == Err(ConnectionError)
    ensures connected && !t.Delivered? ==> c.result == Err(IOError) && !c.connected
    ensures connected && t.Delivered? && (t.err != 0 || |t.data| != 8) ==> c.result == Err(RuntimeError)
  {
    var sent := SendRequest(connected, InitRequest, t);
    match sent.result
    case Err(e) => Call(sent.written, sent.connected, Err(e))
    case Ok(reply) =>
      var (err, data) := reply;
      if err != 0 || |data| != 8 then Call(sent.written, sent.connected, Err(RuntimeError))
      else
        LE64OfDecode(data);
        Call(sent.written, sent.connected, Ok(DecodeLE(data)))
  }

  predicate InRange(address: int, size: int) {
    0 <= address < 0x1_0000_0000_0000_0000 && 0 <= size < 0x1_0000_0000
  }

  /** `read_bytes(address, size)`. `except IOError` also catches the
      `ConnectionError` of a missing handle, since in Python 3 both are
      `OSError`; so once the fields pack, the call never raises and failures
      read as `b''`. */
  function ReadBytes(connected: bool, address: int, size: int, t: Transport): (c: Call<seq<byte>>)
    ensures !InRange(address, size) ==> c == Call([], connected, Err(StructError))
    ensures InRange(address, size) ==> c.result.Ok?
    ensures InRange(address, size) && connected && !t.WriteFailed? ==> c.written == ReadRequestBytes(address, size)
    ensures InRange(address, size) && connected && t.Delivered? && |t.data| > 0 && t.data[0] == 0 ==>
      c.result == Ok(t.data[1..])
    ensures c.result.Ok? && c.result.value != [] ==>
      connected && t.Delivered? && |t.data| > 0 && t.data[0] == 0 && c.result.value == t.data[1..]
    ensures InRange(address, size) ==> (c.connected <==> connected && t.Delivered?)
  {
    if !InRange(address, size) then Call([], connected, Err(StructError))
    else
      var sent := SendRequest(connected, ReadRequestBytes(address, size), t);
      match sent.result
      case Err(_) => Call(sent.written, sent.connected, Ok([]))
      case Ok(reply) =>
        var response := reply.1;
        if |response| == 0 || response[0] != 0 then Call(sent.written, sent.connected, Ok([]))
        else Call(sent.written, sent.connected, Ok(response[1..]))
  }

  /** `read_int(address)`: the signed 32-bit value when exactly four data
      bytes come back, `None` otherwise. */
  function ReadInt(connected: bool, address: int, t: Transport): (c: Call<Option<int>>)
    ensures !InRange(address, 4) ==> c.result == Err(StructError)
    ensures InRange(address, 4) ==> c.result.Ok?
    ensures c.result.Ok? && c.result.value.Some? ==>
      -0x8000_0000 <= c.result.value.value < 0x8000_0000
      && |ReadBytes(connected, address, 4, t).result.value| == 4
      && (c.result.value.value - DecodeLE(ReadBytes(connected, address, 4, t).result.value)) % 0x1_0000_0000 == 0
    ensures c.result == Ok(None) <==>
      InRange(address, 4) && |ReadBytes(connected, address, 4, t).result.value| != 4
  {
    var r := ReadBytes(connected, address, 4, t);
    match r.result
    case Err(e) => Call(r.written, r.connected, Err(e))
    case Ok(data) =>
      if |data| == 4 then
        Pow256Widths();
        Call(r.written, r.connected, Ok(Some(ToSigned32(DecodeLE(data)))))
      else Call(r.written, r.connected, Ok(None))
  }
}

=== FILE: search.dfy ===
/** First-match search over a snapshot list, the shape shared by the
    toolhelp enumerations (`Module32First`/`Module32Next`,
    `Process32First`/`Process32Next`) and the polling loops built on them. */
module Search {
  import opened Wrappers

  /** The index of the first element satisfying `p`, or None. */
  function FirstMatch<T>(s: seq<T>, p: T -> bool): (r: Option<nat>)
    ensures r.Some? ==> r.value < |s| && p(s[r.value])
    ensures r.Some? ==> forall j :: 0 <= j < r.value ==> !p(s[j])
    ensures r.None? <==> forall j :: 0 <= j < |s| ==> !p(s[j])
  {
    if |s| == 0 then None
    else if p(s[0]) then Some(0)
    else match FirstMatch(s[1..], p)
      case None => None
      case Some(i) => Some(i + 1)
  }

  /** `tolower` of the C locale: only 'A'..'Z' change. */
  function AsciiLower(c: char): (l: char)
    ensures 'A' <= c <= 'Z' ==> l as int == c as int + 32
    ensures !('A' <= c <= 'Z') ==> l == c
  {
    if 'A' <= c <= 'Z' then (c as int + 32) as char else c
  }

  /** `_stricmp(a, b) == 0` for strings without an embedded NUL. */
  predicate EqualsIgnoreCase(a: string, b: string) {
    |a| == |b| && forall i :: 0 <= i < |a| ==> AsciiLower(a[i]) == AsciiLower(b[i])
  }

  /** Case-insensitive equality is an equivalence that contains plain equality. */
  lemma EqualsIgnoreCaseIsEquivalence(a: string, b: string, c: string)
    ensures a == b ==> EqualsIgnoreCase(a, b)
    ensures EqualsIgnoreCase(a, b) ==> EqualsIgnoreCase(b, a)
    ensures EqualsIgnoreCase(a, b) && EqualsIgnoreCase(b, c) ==> EqualsIgnoreCase(a, c)
  {
  }
}

=== FILE: wrappers.dfy ===
/** Optional values and results with an error, used by every component model. */
module Wrappers {

  /** A value that may be absent: a failed lookup, a pattern that did not match. */
  datatype Option<+T> = None | Some(value: T)

  /** A computed value, or the error (exception) that took its place. */
  datatype Result<+T, +E> = Ok(value: T) | Err(error: E)
}
